=== FILE: README.md ===
# Offline license issuing and checking, modelled in Dafny

This project models the licensing core of a two-part Python system.

- The **issuer** (`server-application`) generates an RSA key pair and builds a license. A license names a customer, an expiry date and optional MAC / host-name bindings. The issuer signs the license's *payload* and writes the signed record as a JSON file.
- The **client** (`client-application`) loads that record and re-derives the payload. It then decides in a fixed order: load, signature, expiry, MAC binding, hostname binding. The answer is a `(LicenseStatus, message, license-or-None)` triple.
- A small business-service state machine (initialize / execute / shutdown) runs the protected logic.

Everything outside the code's own logic enters as a parameter:

- the file system, as a map from path to text;
- the clock, as an integer count of microseconds;
- the machine identity: `uuid.getnode()` and `socket.gethostname()`, as a `Host` value;
- date parsing, as an injected `isoDay` that maps ISO text to a day number or to failure;
- the cryptographic and codec primitives, as fields of a `Crypto` record: SHA-256, PKCS#1 v1.5 sign/verify (section 8.2 of RFC 8017), base64 (section 4 of RFC 4648), PEM import/export and UTF-8;
- `json.load`/`json.dump` of a license file, as the `parse`/`render` fields of a `JsonFiles` record.

The laws those primitives obey are ghost predicates in `Primitives`, passed to lemmas as hypotheses:

- a signature verifies under the matching public key;
- base64 decoding undoes base64 encoding;
- PEM import undoes PEM export;
- `json.load` reads back what `json.dump` wrote, and what it returns has distinct keys.

There are no axioms.

The sorted-key JSON encoding that both sides hash is modelled concretely, in `Json` and `CanonicalJson`:

- a JSON object is an insertion-ordered member list;
- `json.dumps(..., sort_keys=True)` is a recursive insertion sort by code-point order, followed by printing.

The central fact is `CanonicalJson.CanonicalizeDeterministic`: two dictionaries with the same content get the same canonical text, whatever order their keys were inserted in.

Modules follow the source files:

| module | file |
|---|---|
| `ClientModel` | `client-application/models/license_model.py` |
| `ClientService` | `client-application/services/license_service.py` |
| `MachineUtils` | `client-application/utils/machine_utils.py` |
| `BusinessService` | `client-application/services/business_service.py` |
| `ServerModel` | `server-application/models/license_model.py` |
| `ServerService` | `server-application/services/license_service.py` |
| `CryptoUtils` | `server-application/utils/crypto_utils.py` |

`Interop` relates the two applications to each other.

The two `license_model.py` files are separate copies in the source, so `ClientModel` and `ServerModel` are separate too. `Interop` proves that they agree.

Two faults escape the client's `validate_license`, and the model keeps them as `Err(Fault)`:

- a missing public-key file. `get_public_key` opens the key file (client-application/services/license_service.py:40), and the FileNotFoundError is not among the `ValueError`/`TypeError` that `verify_signature` catches (:74). The `except FileNotFoundError` of `validate_license` (:124) covers only the loading step.
- an expiry date that `datetime.fromisoformat` rejects. `is_expired` is called at :136, outside any `try`, and `days_until_expiry` at :164 likewise.

`ClientService.ValidateLicense` returns `Err(Fault)` for exactly these two cases.

The docstring of `get_primary_mac` (client-application/utils/machine_utils.py:20) shows the format `AA:BB:CC:DD:EE:FF`. The code returns `mac.lower()` (:27), so the model produces lower-case text, and `MachineUtils.PrimaryMac` proves it.

## Model

| member | source | states |
|---|---|---|
| `ClientModel.Code` | client-application/models/license_model.py:11-20 | each status maps to its numeric value; VALID is the only status whose value is 0 |
| `ClientModel.CodesDistinct` | client-application/models/license_model.py:11-20 | distinct statuses have distinct numeric values |
| `ClientModel.ToDict` | client-application/models/license_model.py:29-36 | an empty `mac`/`host` list is absent from the dict; a non-empty list is present unchanged; the dict has no other keys |
| `ClientModel.FromDict` | client-application/models/license_model.py:38-44 | a dict with neither key reads as empty bindings; only a dict is accepted |
| `ClientModel.BindingsRoundTrip` | client-application/models/license_model.py:29-44 | `from_dict(to_dict(b))` gives back `b`, because empty categories return as empty lists |
| `ClientModel.HasBindings` | client-application/models/license_model.py:46-48 | true exactly when `to_dict` is non-empty |
| `ClientModel.Payload` | client-application/models/license_model.py:59-65 | the payload has exactly the keys `customer`, `expiry`, `binds`, holding the customer, the expiry text and the bindings' dict |
| `ClientModel.FromLicenseFile` | client-application/models/license_model.py:67-76 | a record without `payload` fails with KeyError `'payload'`; a loaded license has its customer and expiry from the payload; a missing `binds` gives empty bindings; a missing `signature` gives None, a present one is carried over |
| `ClientModel.IsExpired` | client-application/models/license_model.py:78-84 | a rejected date fails; otherwise, expired exactly when now is strictly after the midnight that starts the expiry day |
| `ClientModel.DaysUntilExpiry` | client-application/models/license_model.py:86-89 | a rejected date fails; otherwise the result is the floor of (expiry midnight - now) in whole days, and it is non-negative exactly when the license is not expired |
| `Expiry.DaysUntil` | client-application/models/license_model.py:86-89 | the whole-day floor of (midnight of the expiry day minus now); non-negative exactly when not expired |
| `ServerModel.ToDict` | server-application/models/license_model.py:16-23 | empty categories are dropped exactly as on the client |
| `ServerModel.FromDict` | server-application/models/license_model.py:25-31 | a dict with neither key reads as empty bindings; only a dict is accepted |
| `ServerModel.BindingsRoundTrip` | server-application/models/license_model.py:16-31 | `from_dict(to_dict(b))` gives back `b` |
| `ServerModel.Payload` | server-application/models/license_model.py:42-49 | exactly the keys `customer`, `expiry`, `binds`, holding the customer, the expiry text and the bindings' dict |
| `ServerModel.ToLicenseFile` | server-application/models/license_model.py:51-56 | the record has exactly `payload` and `signature`; `payload` is `get_payload()`; the signature is carried unchanged (None as null) |
| `ServerModel.FromLicenseFile` | server-application/models/license_model.py:58-67 | a record without `payload` fails with KeyError; a missing `signature` loads as None |
| `ServerModel.RecordRoundTrip` | server-application/models/license_model.py:51-67 | `from_license_file(to_license_file(L)) == L` for every license, unsigned ones included |
| `ServerModel.IsExpired` | server-application/models/license_model.py:69-72 | the same strict-after-midnight rule as the client; a rejected date fails |
| `CanonicalJson.SortByKey` | server-application/utils/crypto_utils.py:78 | the members come out strictly ordered by key, with the same members and the same lookups |
| `CanonicalJson.Canonicalize` | server-application/utils/crypto_utils.py:78 | the result is sorted at every level, well formed, and has the same content as the input |
| `CanonicalJson.CanonicalizeDeterministic` | server-application/utils/crypto_utils.py:78 | two well-formed values with the same content have identical canonical forms |
| `CanonicalJson.DumpsDeterministic` | server-application/utils/crypto_utils.py:103 | `json.dumps(sort_keys=True)` gives the same text for same-content values |
| `CanonicalJson.ReorderedDictSameDumps` | server-application/utils/crypto_utils.py:78 | a dict whose members are a permutation of another's dumps to the same text |
| `CryptoUtils.SignData` | server-application/utils/crypto_utils.py:65-87 | under the primitive laws, the base64 signature of the canonical digest verifies against the same data and the matching public key |
| `CryptoUtils.VerifySignature` | server-application/utils/crypto_utils.py:89-109 | true exactly when a signature is present, base64-decodes, and PKCS#1 v1.5 verification accepts it over the SHA-256 of the sorted-key JSON of the data; an absent signature gives false rather than raising |
| `CryptoUtils.SignAndVerifyIgnoreInsertionOrder` | server-application/utils/crypto_utils.py:77-104 | signing and verifying depend only on the data's content, not on its key insertion order |
| `CryptoUtils.LoadPrivateKey` | server-application/utils/crypto_utils.py:53-57 | a missing file and an unimportable PEM are distinct errors; a loaded key is the import of the file's text |
| `CryptoUtils.LoadPublicKey` | server-application/utils/crypto_utils.py:59-63 | the same, for the public key |
| `CryptoUtils.GenerateRsaKeypair` | server-application/utils/crypto_utils.py:19-51 | returns `(pub_path, priv_path)`; both files exist afterwards; under the PEM law they load as the two halves of the new key; no other file changes |
| `MachineUtils.FormatMacShape` | client-application/utils/machine_utils.py:22-26 | the text is six two-digit lower-case hex groups joined by `:`; group k reads back as the octet at bit offset 40 - 8k |
| `MachineUtils.PrimaryMac` | client-application/utils/machine_utils.py:14-27 | 17 characters of `hh:hh:hh:hh:hh:hh`, all lower case, so the final `.lower()` changes nothing |
| `MachineUtils.MacRoundTrip` | client-application/utils/machine_utils.py:22-26 | parsing the MAC text gives back `mac_int & 0xFFFFFFFFFFFF` |
| `MachineUtils.PrimaryMacInjective` | client-application/utils/machine_utils.py:22-27 | distinct 48-bit node numbers give distinct MAC texts |
| `MachineUtils.GetHostname` | client-application/utils/machine_utils.py:29-37 | the host name lower-cased character by character, same length; lowering it again changes nothing |
| `MachineUtils.AllMacAddresses` | client-application/utils/machine_utils.py:39-50 | exactly the one-element list of the primary MAC |
| `MachineUtils.MachineFingerprint` | client-application/utils/machine_utils.py:52-63 | a dict with exactly `mac` (the primary MAC) and `hostname` (the lowered host name) |
| `ClientService.GetPublicKey` | client-application/services/license_service.py:32-41 | a non-empty embedded key wins; otherwise the key file's text; a missing file is an escaping fault |
| `ClientService.EmbeddedKeyPreferred` | client-application/services/license_service.py:37-41 | with an embedded key, signature checks never fail and do not depend on which files exist |
| `ClientService.LoadLicense` | client-application/services/license_service.py:43-51 | a missing file, a JSON decode error and a record that parses but that `from_license_file` rejects are told apart, each exactly; a record that `from_license_file` accepts is the loaded license |
| `ClientService.VerifySignature` | client-application/services/license_service.py:53-75 | only a missing key file escapes; true exactly when the key imports, the signature is present and base64-decodes, and PKCS#1 v1.5 verification accepts it over the SHA-256 of the sorted-key payload; a None signature gives false |
| `ClientService.CheckMacBinding` | client-application/services/license_service.py:77-92 | true exactly when no MAC is listed, or some listed MAC equals this host's MAC once lower-cased |
| `ClientService.CheckHostnameBinding` | client-application/services/license_service.py:94-109 | true exactly when no host is listed, or some listed host equals this host's name once lower-cased |
| `ClientService.UpperCaseMacMatches` | client-application/services/license_service.py:87-92 | a license bound to `AA:BB:CC:DD:EE:FF` matches the host whose node is 0xAABBCCDDEEFF |
| `ClientService.LoadFailure` | client-application/services/license_service.py:121-129 | missing file gives FILE_NOT_FOUND, decode error gives INVALID_FORMAT, any other load error gives UNKNOWN_ERROR, each with no license |
| `ClientService.ValidateLicense` | client-application/services/license_service.py:111-166 | load failures short-circuit: FILE_NOT_FOUND exactly for a missing file, INVALID_FORMAT exactly for a JSON decode error, UNKNOWN_ERROR exactly for a record `from_license_file` rejects. INVALID_SIGNATURE exactly when the license loaded and did not verify, and it carries no license. A license is returned only after it verified, and exactly for VALID, EXPIRED and the two mismatches. EXPIRED exactly when the license loaded, verified and its expiry has passed, and it names the expiry date. FILE_NOT_FOUND, INVALID_FORMAT and UNKNOWN_ERROR arise only from a failed load. MAC_MISMATCH exactly when bindings are required and the MAC binding fails. HOSTNAME_MISMATCH exactly when bindings are required, the MAC binding holds and the hostname binding fails. Each mismatch message names the current MAC or host name and the allowed list. VALID exactly when every enforced stage passed, and it names the customer. A fault escapes exactly for a missing key file, or a verified license with an unparseable date |
| `ClientService.UnboundLicenseIgnoresMachine` | client-application/services/license_service.py:143-166 | a license with no bindings gets the same verdict on every machine |
| `ClientService.BindingsIgnoredWhenNotRequired` | client-application/services/license_service.py:143-144 | with `require_bindings=False` no mismatch is ever reported |
| `ClientService.MacReportedBeforeHostname` | client-application/services/license_service.py:144-161 | when both bindings fail, MAC_MISMATCH is reported |
| `ServerService.PublicKeyPath` | server-application/services/license_service.py:29-31 | the path is the key directory followed by `/pub.pem` |
| `ServerService.PrivateKeyPath` | server-application/services/license_service.py:33-35 | the path is the key directory followed by `/priv.pem` |
| `ServerService.KeyPathsDiffer` | server-application/services/license_service.py:29-35 | the public and private key paths never coincide |
| `ServerService.KeysExist` | server-application/services/license_service.py:37-39 | true exactly when both the public and the private key path are present |
| `ServerService.GenerateKeys` | server-application/services/license_service.py:41-62 | FileExistsError exactly when both key files exist and `force` is false (one file alone does not block); otherwise the pair is written at the two key paths and loads back as the new key |
| `ServerService.SafeFileName` | server-application/services/license_service.py:113-115 | same length; every character is a lower-case letter, digit or `_`; `_` exactly where the name had a non-alphanumeric character or `_`; letters and digits are kept, lower-cased |
| `ServerService.SafeFileNameFixes` | server-application/services/license_service.py:113-115 | a name is its own sanitised form exactly when it holds only safe characters |
| `ServerService.SafeFileNameIdempotent` | server-application/services/license_service.py:113-115 | sanitising twice is sanitising once |
| `ServerService.CustomerFileNamesCollide` | server-application/services/license_service.py:109-116 | "Acme Corp" and "acme_corp" get the same default file |
| `ServerService.LicenseOutputPath` | server-application/services/license_service.py:109-116 | a non-empty explicit path is used; otherwise `<licenses_dir>/<sanitised customer>.lic` |
| `ServerService.OrEmpty` | server-application/services/license_service.py:91-94 | an absent binding list becomes the empty list |
| `ServerService.CreateLicense` | server-application/services/license_service.py:64-123 | missing keys fail before anything is signed or written. The license has the given customer, expiry and defaulted bindings and is signed. Under the primitive laws, the signature verifies over the payload with the matching public key. Exactly one file changes: the output path, holding the rendered record, which reads back as the returned license |
| `ServerService.ReadLicense` | server-application/services/license_service.py:135-139 | a missing file, unparseable text and a rejected record are each reported as such; otherwise the license is what `from_license_file` produced from the parsed file |
| `ServerService.VerifySteps` | server-application/services/license_service.py:135-157 | accepted exactly when read, key loaded, signature verified and not expired; "Invalid signature" exactly when reading and loading succeeded and the signature did not verify |
| `ServerService.VerifyLicense` | server-application/services/license_service.py:125-160 | true exactly when the license reads, the key loads, the signature verifies and the date is not past; then the message names the customer; "Invalid signature" exactly when the license read, the key loaded and the signature did not verify; a missing file becomes `(False, "Verification error: ...")` |
| `BusinessService.New` | client-application/services/business_service.py:14-16 | not initialized; the customer defaults to "Unknown" |
| `BusinessService.Initialize` | client-application/services/business_service.py:18-21 | initialized afterwards, customer unchanged |
| `BusinessService.Shutdown` | client-application/services/business_service.py:53-56 | not initialized afterwards, customer unchanged |
| `BusinessService.CoreLogic` | client-application/services/business_service.py:43-51 | the greeting names the customer |
| `BusinessService.Execute` | client-application/services/business_service.py:23-41 | succeeds exactly when initialized, with a result naming the customer |
| `BusinessService.RunFinalState` | client-application/services/business_service.py:14-56 | after any sequence of calls the customer is unchanged, and the service is initialized exactly when the last lifecycle call was `initialize` |
| `BusinessService.RunOutcomes` | client-application/services/business_service.py:23-41 | each `execute` in a sequence succeeds exactly when the calls before it leave the service initialized |
| `BusinessService.Lifecycle` | client-application/services/business_service.py:14-56 | fresh: execute raises; after initialize: the exact greeting, and initializing again changes nothing; after shutdown: execute raises again |
| `Interop.PayloadsAgree` | server-application/models/license_model.py:42-49 | the client's `get_payload` of an issued license equals the issuer's |
| `Interop.LoadersAgree` | client-application/models/license_model.py:67-76 | the two `from_license_file` accept the same records and read the same license |
| `Interop.ClientReadsIssuedRecord` | server-application/models/license_model.py:51-56 | the record the issuer writes loads on the client as the same license |
| `Interop.ExpiryAgrees` | server-application/models/license_model.py:69-72 | both sides judge expiry identically |
| `Interop.ClientVerifyMatchesIssuer` | client-application/services/license_service.py:63-75 | the client's check is the issuer's `verify_signature` on the key the client loaded |
| `Interop.IssuedLicenseValidates` | server-application/services/license_service.py:104-121 | with a key pair on disk, a created license validates VALID on a client using the issuer's public key, before expiry, on a machine satisfying enforced bindings |
| `Interop.IssuerAndClientAgree` | server-application/services/license_service.py:125-157 | without bindings enforced, the issuer accepts a file exactly when the client reports VALID for it |

## Left out

- RSA, SHA-256, PKCS#1 v1.5, base64, PEM and UTF-8 are abstract functions. Their laws are hypotheses, so tamper sensitivity and unforgeability (computational properties) are not stated.
- `RSA.generate` and its randomness are not modelled: the new key is a parameter of `GenerateKeys`. `DEFAULT_KEY_SIZE` (4096) is kept as a constant but has no effect.
- Directory creation (`mkdir`) is not modelled: a map from paths to text has no directories.
- `datetime.utcnow()` is read twice on the client (`is_expired`, then `days_until_expiry`). Both reads are taken as the same instant `now`.
- `datetime.fromisoformat` is reduced to a day number. An expiry with a time-of-day part is outside the model; the record's field is documented as a `YYYY-MM-DD` date (client-application/models/license_model.py:55, server-application/services/license_service.py:77).
- Exception texts are modelled only for KeyError (the quoted key) and FileNotFoundError. Other texts in `ClientService.Describe` and `ServerService.FailureText` are stand-ins.
- `json.dumps` escaping covers only `"`, `\`, newline, carriage return and tab. The short escapes `\b` and `\f`, the `\u00XX` escaping of every other control character below 0x20, and the `\uXXXX` escaping of non-ASCII characters that `ensure_ascii` selects are not modelled. Numbers are integers.
- The indented layout `json.dump(..., indent=2)` writes is the abstract `render`.
- ClientModel.FromLicenseFile: reads `customer`/`expiry` only as JSON strings and `mac`/`host` only as string arrays; any other type is a load error (UNKNOWN_ERROR), where Python would carry the value on.
- ClientModel.FromLicenseFile: a `signature` that is not a string loads as None. Python would keep it and raise TypeError in `b64decode`, which gives the same verdict.
- ServerModel.FromLicenseFile: the same typing as the client's loader.
- `str.lower()` and `str.isalnum()` are ASCII-only. Non-ASCII letters are left as they are by lowering, and the sanitiser turns them into `_`.
- ServerService.VerifyLicense: the message for an expired license and the texts for exceptions other than a missing license file are not stated in the contract.
- ServerService.PublicKeyPath / PrivateKeyPath / LicenseOutputPath: paths are joined by plain concatenation with `/`. pathlib's `/` normalises: a trailing or doubled separator, an empty directory (`"" / "pub.pem"` is `pub.pem`) or a `./` prefix give a different text in the source. The client's `Path(license_path)` in the FILE_NOT_FOUND message is likewise taken as given.
- ClientService.ReprList: every element is quoted with `'`. Python's `repr` switches to `"` for a string containing `'` and escapes backslashes and control characters; that is not modelled.
- ClientService.ValidateLicense: the day count inside the VALID message is not stated in the contract; `ClientModel.DaysUntilExpiry` states it.
- `get_public_key` returns bytes; the model keeps PEM text, and the embedded key's UTF-8 encoding is folded into the abstract importer.
- `uuid.getnode()` and `socket.gethostname()` are the `Host` parameter. A failure to read them is not modelled.
- Console output (`print`) in the business service is not modelled.
- `BusinessService.Run` records the outcome of every call and carries on after a failed `execute`. That is what a caller sees if it catches the RuntimeError. A caller that lets the error propagate stops at the first failure, and that case is not modelled separately.
- The CLI layers (`main.py`, the controllers), the Cython build (`setup.py`) and `test_obfuscation.py` hold no licensing logic and are not part of this model. The exit code equals the status value, and `ClientModel.Code` states that value.

=== FILE: business_service.dfy ===
/** The licensed application's business component
    (client-application/services/business_service.py): a two-state lifecycle in
    which the core logic runs only between `initialize` and `shutdown`. */
module BusinessService {
  import opened Wrappers
  import opened Strings

  datatype Service = Service(customerName: string, initialized: bool)

  const DefaultCustomer: string := "Unknown"

  /** The RuntimeError `execute` raises before `initialize`. */
  datatype ServiceError = NotInitialized

  function ErrorText(e: ServiceError): string {
    match e
    case NotInitialized => "BusinessService not initialized"
  }

  /** `BusinessService(customer_name)`; an omitted name is "Unknown". */
  function New(customerName: Option<string>): (s: Service)
    ensures !s.initialized
    ensures customerName.Some? ==> s.customerName == customerName.value
    ensures customerName.None? ==> s.customerName == DefaultCustomer
  {
    Service(if customerName.Some? then customerName.value else DefaultCustomer, false)
  }

  function Initialize(s: Service): (t: Service)
    ensures t.initialized && t.customerName == s.customerName
  {
    s.(initialized := true)
  }

  function Shutdown(s: Service): (t: Service)
    ensures !t.initialized && t.customerName == s.customerName
  {
    s.(initialized := false)
  }

  /** `_core_logic`: the greeting, which names the customer. */
  function CoreLogic(s: Service): (m: string)
    ensures Contains(m, s.customerName)
  {
    var tail := "!";
    ContainsInfix("Hello World! Welcome, ", s.customerName, tail);
    "Hello World! Welcome, " + s.customerName + tail
  }

  /** `execute`: the core logic, or the error when not initialized. The service's state is
      unchanged either way. */
  function Execute(s: Service): (r: Result<string, ServiceError>)
    ensures r.Ok? <==> s.initialized
    ensures r.Ok? ==> Contains(r.value, s.customerName)
  {
    if !s.initialized then Err(NotInitialized) else Ok(CoreLogic(s))
  }

  datatype Op = InitializeOp | ExecuteOp | ShutdownOp

  /** What a call produced: nothing for the lifecycle calls, the result of `execute`. */
  datatype Outcome = Done | Executed(result: Result<string, ServiceError>)

  function Step(s: Service, op: Op): (Service, Outcome) {
    match op
    case InitializeOp => (Initialize(s), Done)
    case ShutdownOp => (Shutdown(s), Done)
    case ExecuteOp => (s, Executed(Execute(s)))
  }

  /** A sequence of calls, each error reported to the caller and the run carried on. */
  function Run(s: Service, ops: seq<Op>): (r: (Service, seq<Outcome>))
    ensures |r.1| == |ops|
    ensures r.0.customerName == s.customerName
    decreases |ops|
  {
    if |ops| == 0 then (s, [])
    else
      var (t, o) := Step(s, ops[0]);
      var (u, os) := Run(t, ops[1..]);
      (u, [o] + os)
  }

  /** Whether the service is initialized after `ops`, read off the last lifecycle call:
      an independent reference for `Run`. */
  function InitializedAfter(initially: bool, ops: seq<Op>): bool
    decreases |ops|
  {
    if |ops| == 0 then initially
    else if ops[|ops| - 1] == InitializeOp then true
    else if ops[|ops| - 1] == ShutdownOp then false
    else InitializedAfter(initially, ops[..|ops| - 1])
  }

  lemma {:induction false} InitializedAfterCons(initially: bool, op: Op, ops: seq<Op>)
    ensures InitializedAfter(initially, [op] + ops) == InitializedAfter(Step(Service("", initially), op).0.initialized, ops)
    decreases |ops|
  {
    var all := [op] + ops;
    if |ops| == 0 {
      assert all == [op];
    } else {
      assert all[..|all| - 1] == [op] + ops[..|ops| - 1];
      assert all[|all| - 1] == ops[|ops| - 1];
      InitializedAfterCons(initially, op, ops[..|ops| - 1]);
    }
  }

  /** After any sequence of calls the customer is the same and the service is initialized
      exactly when the last lifecycle call was `initialize` (or, with none, as it began). */
  lemma {:induction false} RunFinalState(s: Service, ops: seq<Op>)
    ensures Run(s, ops).0 == Service(s.customerName, InitializedAfter(s.initialized, ops))
    decreases |ops|
  {
    if |ops| > 0 {
      var t := Step(s, ops[0]).0;
      RunFinalState(t, ops[1..]);
      assert ops == [ops[0]] + ops[1..];
      InitializedAfterCons(s.initialized, ops[0], ops[1..]);
      assert t.initialized == Step(Service("", s.initialized), ops[0]).0.initialized;
    }
  }

  /** Each `execute` in a run succeeds exactly when the calls before it leave the service
      initialized, and its result then names the customer. */
  lemma {:induction false} RunOutcomes(s: Service, ops: seq<Op>, i: int)
    requires 0 <= i < |ops| && ops[i] == ExecuteOp
    ensures Run(s, ops).1[i].Executed?
    ensures Run(s, ops).1[i].result.Ok? <==> InitializedAfter(s.initialized, ops[..i])
    ensures Run(s, ops).1[i].result.Ok? ==> Contains(Run(s, ops).1[i].result.value, s.customerName)
    decreases |ops|
  {
    var t := Step(s, ops[0]).0;
    if i == 0 {
      assert ops[..0] == [];
    } else {
      RunOutcomes(t, ops[1..], i - 1);
      RunFinalState(s, ops[..1]);
      assert ops[..i] == [ops[0]] + ops[1..][..i - 1];
      InitializedAfterCons(s.initialized, ops[0], ops[1..][..i - 1]);
      assert t.initialized == Step(Service("", s.initialized), ops[0]).0.initialized;
      assert t.customerName == s.customerName;
    }
  }

  /** A fresh service refuses to run; after `initialize` it greets the customer, and
      initializing again changes nothing; after `shutdown` it refuses again. */
  lemma Lifecycle(name: string)
    ensures Execute(New(Some(name))) == Err(NotInitialized)
    ensures Execute(Initialize(New(Some(name)))) == Ok("Hello World! Welcome, " + name + "!")
    ensures Initialize(Initialize(New(Some(name)))) == Initialize(New(Some(name)))
    ensures Execute(Shutdown(Initialize(New(Some(name))))) == Err(NotInitialized)
    ensures New(None).customerName == "Unknown"
  {
  }
}

=== FILE: canonical.dfy ===
/** The canonical encoding that signing and verification share:
    `json.dumps(data, sort_keys=True)`, i.e. every object's members emitted in
    ascending key order, recursively. */
module CanonicalJson {
  import opened Wrappers
  import opened Strings
  import opened Json

  /** Members in strictly ascending key order (so keys are also distinct). */
  predicate KeySorted(ms: seq<Member>) {
    forall i, j :: 0 <= i < j < |ms| ==> StrLess(ms[i].key, ms[j].key)
  }

  /** Every object inside `j` has its members in ascending key order. */
  predicate IsCanonical(j: Json)
    decreases j
  {
    match j
    case JArr(xs) => forall i :: 0 <= i < |xs| ==> IsCanonical(xs[i])
    case JObj(ms) => KeySorted(ms) && forall i :: 0 <= i < |ms| ==> IsCanonical(ms[i].value)
    case _ => true
  }

  /** Places a member with a fresh key into a key-sorted member list. */
  function Insert(m: Member, ms: seq<Member>): (r: seq<Member>)
    requires KeySorted(ms) && m.key !in Keys(ms)
    ensures KeySorted(r)
    ensures forall x :: x in r <==> x == m || x in ms
    ensures forall k :: Get(r, k) == if k == m.key then Some(m.value) else Get(ms, k)
    decreases |ms|
  {
    if |ms| == 0 then [m]
    else if StrLess(m.key, ms[0].key) then
      assert forall j :: 0 <= j < |ms| ==> StrLess(m.key, ms[j].key) by {
        forall j | 0 < j < |ms| {
          StrLessTransitive(m.key, ms[0].key, ms[j].key);
        }
      }
      [m] + ms
    else
      StrLessTotal(m.key, ms[0].key);
      assert forall x :: x in ms <==> x == ms[0] || x in ms[1..];
      var rest := Insert(m, ms[1..]);
      assert forall x :: x in rest ==> StrLess(ms[0].key, x.key) by {
        forall x | x in rest
          ensures StrLess(ms[0].key, x.key)
        {
          if x != m {
            var j :| 0 <= j < |ms[1..]| && ms[1..][j] == x;
            assert ms[j + 1] == x;
          }
        }
      }
      [ms[0]] + rest
  }

  /** `sorted(d.items())` for a dict: members in ascending key order. */
  function SortByKey(ms: seq<Member>): (r: seq<Member>)
    requires DistinctKeys(ms)
    ensures KeySorted(r)
    ensures forall x :: x in r <==> x in ms
    ensures forall k :: Get(r, k) == Get(ms, k)
    decreases |ms|
  {
    if |ms| == 0 then []
    else
      assert forall x :: x in ms <==> x == ms[0] || x in ms[1..];
      assert ms[0].key !in Keys(ms[1..]) by {
        forall x | x in ms[1..] ensures x.key != ms[0].key {
          var j :| 0 <= j < |ms[1..]| && ms[1..][j] == x;
          assert ms[j + 1] == x;
        }
      }
      Insert(ms[0], SortByKey(ms[1..]))
  }

  lemma StrLessAsymmetric(x: string, y: string)
    ensures !(StrLess(x, y) && StrLess(y, x))
  {
    if StrLess(x, y) && StrLess(y, x) {
      StrLessTransitive(x, y, x);
      StrLessIrreflexive(x);
    }
  }

  lemma SortedDistinct(ms: seq<Member>)
    requires KeySorted(ms)
    ensures DistinctKeys(ms)
  {
    forall i, j | 0 <= i < j < |ms| ensures ms[i].key != ms[j].key {
      StrLessIrreflexive(ms[i].key);
    }
  }

  /** Strictly sorted member lists that agree on every lookup are identical:
      the sorted order of a dict's items is unique. */
  lemma {:induction false} SortedUnique(a: seq<Member>, b: seq<Member>)
    requires KeySorted(a) && KeySorted(b)
    requires forall k :: Get(a, k) == Get(b, k)
    ensures a == b
    decreases |a|
  {
    if |a| == 0 {
      assert |b| > 0 ==> Get(b, b[0].key).Some?;
    } else {
      assert Get(a, a[0].key) == Some(a[0].value);
      assert |b| > 0;
      var x, y := a[0].key, b[0].key;
      assert Get(b, y) == Some(b[0].value);
      var ga, gb := Get(a, y), Get(b, x);
      var i :| 0 <= i < |a| && a[i] == Member(y, ga.value);
      var j :| 0 <= j < |b| && b[j] == Member(x, gb.value);
      assert i == 0 || StrLess(x, y);
      assert j == 0 || StrLess(y, x);
      StrLessAsymmetric(x, y);
      assert a[0] == b[0];
      forall k
        ensures Get(a[1..], k) == Get(b[1..], k)
      {
        if k == x {
          forall m | m in a[1..] ensures m.key != x {
            var i :| 0 <= i < |a[1..]| && a[1..][i] == m;
            assert a[i + 1] == m;
            StrLessIrreflexive(x);
          }
          forall m | m in b[1..] ensures m.key != x {
            var i :| 0 <= i < |b[1..]| && b[1..][i] == m;
            assert b[i + 1] == m;
            StrLessIrreflexive(x);
          }
        } else {
          assert Get(a, k) == Get(a[1..], k);
          assert Get(b, k) == Get(b[1..], k);
        }
      }
      SortedUnique(a[1..], b[1..]);
      assert a == [a[0]] + a[1..] && b == [b[0]] + b[1..];
    }
  }

  /** The members of an object with every value canonicalized. */
  function CanonMembers(ms: seq<Member>, canon: seq<Json>): (r: seq<Member>)
    requires |canon| == |ms|
    ensures |r| == |ms|
    ensures forall i :: 0 <= i < |ms| ==> r[i] == Member(ms[i].key, canon[i])
    ensures Keys(r) == Keys(ms)
    ensures DistinctKeys(ms) ==> DistinctKeys(r)
  {
    var r := seq(|ms|, i requires 0 <= i < |ms| => Member(ms[i].key, canon[i]));
    assert Keys(r) == Keys(ms) by {
      forall k | k in Keys(ms) ensures k in Keys(r) {
        var m :| m in ms && m.key == k;
        var i :| 0 <= i < |ms| && ms[i] == m;
        assert r[i] in r;
      }
      forall k | k in Keys(r) ensures k in Keys(ms) {
        var m :| m in r && m.key == k;
        var i :| 0 <= i < |r| && r[i] == m;
        assert ms[i] in ms;
      }
    }
    r
  }

  /** What `sort_keys=True` makes of a value: the same content, with every
      object's members in ascending key order. */
  function Canonicalize(j: Json): (r: Json)
    requires WellFormed(j)
    ensures WellFormed(r) && IsCanonical(r)
    ensures SameContent(j, r)
    decreases j
  {
    match j
    case JArr(xs) =>
      JArr(seq(|xs|, i requires 0 <= i < |xs| => Canonicalize(xs[i])))
    case JObj(ms) =>
      var canon := seq(|ms|, i requires 0 <= i < |ms| => Canonicalize(ms[i].value));
      CanonObjectFacts(ms, canon);
      JObj(SortByKey(CanonMembers(ms, canon)))
    case _ => j
  }

  /** The object case of `Canonicalize`: sorting the canonicalized members keeps the
      object well formed and its content unchanged. */
  lemma CanonObjectFacts(ms: seq<Member>, canon: seq<Json>)
    requires WellFormed(JObj(ms)) && |canon| == |ms|
    requires forall i :: 0 <= i < |ms| ==>
               WellFormed(canon[i]) && IsCanonical(canon[i]) && SameContent(ms[i].value, canon[i])
    ensures var r := SortByKey(CanonMembers(ms, canon));
            WellFormed(JObj(r)) && IsCanonical(JObj(r)) && SameContent(JObj(ms), JObj(r))
  {
    var cs := CanonMembers(ms, canon);
    var r := SortByKey(cs);
    SortedDistinct(r);
    assert forall x :: x in r ==> WellFormed(x.value) && IsCanonical(x.value);
    assert forall i :: 0 <= i < |r| ==> WellFormed(r[i].value) && IsCanonical(r[i].value) by {
      forall i | 0 <= i < |r| ensures WellFormed(r[i].value) && IsCanonical(r[i].value) {
        assert r[i] in r;
      }
    }
    forall i | 0 <= i < |ms|
      ensures Get(r, ms[i].key) == Some(canon[i])
    {
      assert cs[i] in cs;
      GetDistinct(cs, ms[i].key, canon[i]);
    }
    assert Keys(r) == Keys(cs) by {
      forall k ensures k in Keys(r) <==> k in Keys(cs) {
        assert Get(r, k) == Get(cs, k);
      }
    }
  }

  /** Values of the same content canonicalize to the identical value. */
  lemma {:induction false} CanonicalizeDeterministic(a: Json, b: Json)
    requires WellFormed(a) && WellFormed(b)
    requires SameContent(a, b)
    ensures Canonicalize(a) == Canonicalize(b)
    decreases a
  {
    match a
    case JArr(xs) =>
      var ys := b.items;
      forall i | 0 <= i < |xs|
        ensures Canonicalize(xs[i]) == Canonicalize(ys[i])
      {
        CanonicalizeDeterministic(xs[i], ys[i]);
      }
    case JObj(ms) =>
      var ns := b.members;
      var ca := seq(|ms|, i requires 0 <= i < |ms| => Canonicalize(ms[i].value));
      var cb := seq(|ns|, i requires 0 <= i < |ns| => Canonicalize(ns[i].value));
      var csa, csb := CanonMembers(ms, ca), CanonMembers(ns, cb);
      forall k
        ensures Get(csa, k) == Get(csb, k)
      {
        if k in Keys(ms) {
          var m :| m in ms && m.key == k;
          var i :| 0 <= i < |ms| && ms[i] == m;
          var w := Get(ns, k);
          assert w.Some? && SameContent(ms[i].value, w.value);
          var p :| 0 <= p < |ns| && ns[p] == Member(k, w.value);
          assert csa[i] in csa && csb[p] in csb;
          GetDistinct(csa, k, ca[i]);
          GetDistinct(csb, k, cb[p]);
          CanonicalizeDeterministic(ms[i].value, w.value);
        }
      }
      SortedUnique(SortByKey(csa), SortByKey(csb));
    case _ =>
  }

  /** `json.dumps(data, sort_keys=True)`. */
  function Dumps(j: Json): string
    requires WellFormed(j)
  {
    Print(Canonicalize(j))
  }

  /** The canonical text depends only on the content of a value, never on the order in
      which keys were inserted into its dicts. */
  lemma DumpsDeterministic(a: Json, b: Json)
    requires WellFormed(a) && WellFormed(b)
    requires SameContent(a, b)
    ensures Dumps(a) == Dumps(b)
  {
    CanonicalizeDeterministic(a, b);
  }

  lemma {:induction false} SameContentReflexive(j: Json)
    requires WellFormed(j)
    ensures SameContent(j, j)
    decreases j
  {
    match j
    case JArr(xs) =>
      forall i | 0 <= i < |xs| ensures SameContent(xs[i], xs[i]) {
        SameContentReflexive(xs[i]);
      }
    case JObj(ms) =>
      forall i | 0 <= i < |ms|
        ensures Get(ms, ms[i].key) == Some(ms[i].value) && SameContent(ms[i].value, ms[i].value)
      {
        assert ms[i] in ms;
        GetDistinct(ms, ms[i].key, ms[i].value);
        SameContentReflexive(ms[i].value);
      }
    case _ =>
  }

  /** Building the same dict with its keys inserted in another order gives the same
      canonical text. */
  lemma ReorderedDictSameDumps(ms: seq<Member>, ns: seq<Member>)
    requires WellFormed(JObj(ms)) && WellFormed(JObj(ns))
    requires multiset(ms) == multiset(ns)
    ensures Dumps(JObj(ms)) == Dumps(JObj(ns))
  {
    assert forall x :: x in ms <==> x in ns by {
      forall x ensures x in ms <==> x in ns {
        assert x in ms <==> x in multiset(ms);
        assert x in ns <==> x in multiset(ns);
      }
    }
    assert Keys(ms) == Keys(ns);
    forall i | 0 <= i < |ms|
      ensures Get(ns, ms[i].key) == Some(ms[i].value) && SameContent(ms[i].value, ms[i].value)
    {
      assert ms[i] in ns;
      GetDistinct(ns, ms[i].key, ms[i].value);
      SameContentReflexive(ms[i].value);
    }
    DumpsDeterministic(JObj(ms), JObj(ns));
  }
}

=== FILE: client_model.dfy ===
/** The client's license value types: status codes, bindings, the license, and the
    payload it recomputes for verification (client-application/models/license_model.py). */
module ClientModel {
  import opened Wrappers
  import opened Json
  import opened Expiry

  /** Validation outcomes; the numeric value is the client's process exit code. */
  datatype Status =
    | Valid
    | FileNotFound
    | InvalidSignature
    | Expired
    | MacMismatch
    | HostnameMismatch
    | InvalidFormat
    | UnknownError

  function Code(s: Status): (r: nat)
    ensures r == 0 <==> s == Valid
  {
    match s
    case Valid => 0
    case FileNotFound => 2
    case InvalidSignature => 3
    case Expired => 4
    case MacMismatch => 5
    case HostnameMismatch => 6
    case InvalidFormat => 7
    case UnknownError => 99
  }

  /** Distinct statuses exit with distinct codes. */
  lemma CodesDistinct(s: Status, t: Status)
    ensures Code(s) == Code(t) <==> s == t
  {
  }

  /** Allowed MAC addresses and host names; an empty list places no constraint. */
  datatype Bindings = Bindings(mac: seq<string>, host: seq<string>)

  const NoBindings := Bindings([], [])

  datatype License = License(customer: string, expiry: string, bindings: Bindings, signature: Option<string>)

  /** `LicenseBindings.to_dict`: an empty category is left out of the dict. */
  function ToDict(b: Bindings): (r: Json)
    ensures r.JObj? && WellFormed(r)
    ensures Keys(r.members) <= {"mac", "host"}
    ensures Get(r.members, "mac") == if |b.mac| == 0 then None else Some(StrArray(b.mac))
    ensures Get(r.members, "host") == if |b.host| == 0 then None else Some(StrArray(b.host))
  {
    var macPart := if |b.mac| == 0 then [] else [Member("mac", StrArray(b.mac))];
    var hostPart := if |b.host| == 0 then [] else [Member("host", StrArray(b.host))];
    JObj(macPart + hostPart)
  }

  /** `LicenseBindings.from_dict`: an absent category reads as an empty list. */
  function FromDict(data: Json): (r: Result<Bindings, FieldError>)
    ensures data.JObj? && Get(data.members, "mac").None? && Get(data.members, "host").None? ==>
              r == Ok(NoBindings)
    ensures r.Ok? ==> data.JObj?
  {
    var mac :- StrListField(data, "mac");
    var host :- StrListField(data, "host");
    Ok(Bindings(mac, host))
  }

  /** Bindings survive the trip through their dict form, empty categories included. */
  lemma BindingsRoundTrip(b: Bindings)
    ensures FromDict(ToDict(b)) == Ok(b)
  {
    StrArrayRoundTrip(b.mac);
    StrArrayRoundTrip(b.host);
  }

  /** `LicenseBindings.has_bindings`. */
  function HasBindings(b: Bindings): (r: bool)
    ensures r <==> ToDict(b) != JObj([])
  {
    |b.mac| > 0 || |b.host| > 0
  }

  /** `License.get_payload`: the dict whose canonical text the issuer signed. */
  function Payload(l: License): (r: Json)
    ensures r.JObj? && WellFormed(r)
    ensures Keys(r.members) == {"customer", "expiry", "binds"}
    ensures Get(r.members, "customer") == Some(JStr(l.customer))
    ensures Get(r.members, "expiry") == Some(JStr(l.expiry))
    ensures Get(r.members, "binds") == Some(ToDict(l.bindings))
  {
    var ms := [Member("customer", JStr(l.customer)), Member("expiry", JStr(l.expiry)),
               Member("binds", ToDict(l.bindings))];
    assert WellFormed(ms[0].value) && WellFormed(ms[1].value) && WellFormed(ms[2].value);
    assert DistinctKeys(ms);
    assert Keys(ms) == {"customer", "expiry", "binds"};
    JObj(ms)
  }

  /** `payload.get("binds", {})`. */
  function BindsOf(payload: Json): Json
    requires payload.JObj?
  {
    match Get(payload.members, "binds")
    case None => JObj([])
    case Some(v) => v
  }

  /** `data.get("signature")`. A value that is not a string loads as `None`: verification
      rejects it exactly as it rejects `None` (base64 decoding raises TypeError). */
  function SignatureOf(data: Json): Option<string>
    requires data.JObj?
  {
    match Get(data.members, "signature")
    case Some(JStr(s)) => Some(s)
    case _ => None
  }

  /** `License.from_license_file`. */
  function FromLicenseFile(data: Json): (r: Result<License, FieldError>)
    ensures data.JObj? && Get(data.members, "payload").None? ==> r == Err(MissingKey("payload"))
    ensures r.Ok? ==>
              && data.JObj? && Get(data.members, "payload").Some?
              && var p := Get(data.members, "payload").value;
                 && p.JObj?
                 && Get(p.members, "customer") == Some(JStr(r.value.customer))
                 && Get(p.members, "expiry") == Some(JStr(r.value.expiry))
                 && (Get(p.members, "binds").None? ==> r.value.bindings == NoBindings)
    ensures r.Ok? && Get(data.members, "signature").None? ==> r.value.signature.None?
    ensures r.Ok? && r.value.signature.Some? ==>
              Get(data.members, "signature") == Some(JStr(r.value.signature.value))
  {
    var payload :- Field(data, "payload", "record");
    var customer :- StrField(payload, "customer", "payload");
    var expiry :- StrField(payload, "expiry", "payload");
    var bindings :- FromDict(BindsOf(payload));
    Ok(License(customer, expiry, bindings, SignatureOf(data)))
  }

  /** `License.is_expired` at instant `now`; a date the parser rejects raises. */
  function IsExpired(l: License, now: int, isoDay: string -> Option<int>): (r: Result<bool, DateError>)
    ensures r.Err? <==> isoDay(l.expiry).None?
    ensures r.Ok? ==> (r.value <==> now > Midnight(isoDay(l.expiry).value))
  {
    var day :- ParseDate(isoDay, l.expiry);
    Ok(ExpiredAt(day, now))
  }

  /** `License.days_until_expiry` at instant `now`. */
  function DaysUntilExpiry(l: License, now: int, isoDay: string -> Option<int>): (r: Result<int, DateError>)
    ensures r.Err? <==> isoDay(l.expiry).None?
    ensures r.Ok? ==> r.value == DaysUntil(isoDay(l.expiry).value, now)
    ensures r.Ok? ==> (r.value >= 0 <==> IsExpired(l, now, isoDay) == Ok(false))
  {
    var day :- ParseDate(isoDay, l.expiry);
    Ok(DaysUntil(day, now))
  }
}

=== FILE: client_service.dfy ===
/** The client's validation pipeline (client-application/services/license_service.py):
    load, then signature, then expiry, then MAC binding, then hostname binding, each
    stage reached only when the ones before it passed. */
module ClientService {
  import opened Wrappers
  import opened Strings
  import opened Json
  import opened CanonicalJson
  import opened Primitives
  import opened Expiry
  import opened ClientModel
  import opened MachineUtils

  /** The license file, the public-key file, and the key embedded in the protected build. */
  datatype Config = Config(licensePath: string, pubkeyPath: string, embeddedPubkey: Option<string>)

  /** What the client reads from its surroundings: file contents by path, the current
      instant, and the identity of the host it runs on. */
  datatype Env = Env(files: map<string, string>, now: int, host: Host)

  /** Why `load_license` raised: FileNotFoundError, JSONDecodeError, or any other error
      while reading the record. */
  datatype LoadError = LicenseFileMissing(path: string) | NotJson | BadRecord(error: FieldError)

  /** Exceptions that escape `validate_license`: its `try` covers only the loading step
      and `verify_signature` catches only ValueError and TypeError. */
  datatype Fault = PublicKeyFileMissing(path: string) | BadExpiryDate(error: DateError)

  /** The `(status, message, license-or-None)` triple. */
  datatype Verdict = Verdict(status: Status, message: string, license: Option<License>)

  predicate HasEmbeddedKey(cfg: Config) {
    cfg.embeddedPubkey.Some? && cfg.embeddedPubkey.value != ""
  }

  /** `get_public_key`: a non-empty embedded key wins; otherwise the key file is read. */
  function GetPublicKey(cfg: Config, files: map<string, string>): (r: Result<string, Fault>)
    ensures HasEmbeddedKey(cfg) ==> r == Ok(cfg.embeddedPubkey.value)
    ensures r.Err? <==> !HasEmbeddedKey(cfg) && cfg.pubkeyPath !in files
    ensures r.Ok? && !HasEmbeddedKey(cfg) ==> r.value == files[cfg.pubkeyPath]
  {
    if HasEmbeddedKey(cfg) then Ok(cfg.embeddedPubkey.value)
    else if cfg.pubkeyPath in files then Ok(files[cfg.pubkeyPath])
    else Err(PublicKeyFileMissing(cfg.pubkeyPath))
  }

  /** `load_license`. */
  function LoadLicense(cfg: Config, files: map<string, string>, io: JsonFiles): (r: Result<License, LoadError>)
    ensures cfg.licensePath !in files <==> r == Err(LicenseFileMissing(cfg.licensePath))
    ensures r == Err(NotJson) <==> cfg.licensePath in files && io.parse(files[cfg.licensePath]).None?
    ensures r.Ok? ==> cfg.licensePath in files && io.parse(files[cfg.licensePath]).Some?
                      && FromLicenseFile(io.parse(files[cfg.licensePath]).value) == Ok(r.value)
    // A record that parses but that `from_license_file` rejects is a bad record, with its error.
    ensures r.Err? && r.error.BadRecord? <==>
              && cfg.licensePath in files && io.parse(files[cfg.licensePath]).Some?
              && FromLicenseFile(io.parse(files[cfg.licensePath]).value).Err?
    ensures r.Err? && r.error.BadRecord? ==>
              r.error.error == FromLicenseFile(io.parse(files[cfg.licensePath]).value).error
    ensures cfg.licensePath in files && io.parse(files[cfg.licensePath]).Some?
            && FromLicenseFile(io.parse(files[cfg.licensePath]).value).Ok? ==>
              r == Ok(FromLicenseFile(io.parse(files[cfg.licensePath]).value).value)
  {
    if cfg.licensePath !in files then Err(LicenseFileMissing(cfg.licensePath))
    else match io.parse(files[cfg.licensePath])
      case None => Err(NotJson)
      case Some(data) =>
        match FromLicenseFile(data)
        case Err(e) => Err(BadRecord(e))
        case Ok(l) => Ok(l)
  }

  /** `verify_signature`: recomputes the canonical digest of the license's payload and checks
      the base64 signature against it. Every ValueError/TypeError (malformed key, absent
      signature, bad base64, failed check) gives false; only a missing key file escapes. */
  function VerifySignature(cfg: Config, files: map<string, string>, c: Crypto, l: License): (r: Result<bool, Fault>)
    ensures r.Err? <==> GetPublicKey(cfg, files).Err?
    // True exactly when the key imports, the signature is present and decodes, and the
    // PKCS#1 v1.5 check accepts it over the digest of the canonical payload.
    ensures r == Ok(true) <==>
              && GetPublicKey(cfg, files).Ok?
              && c.importPublic(GetPublicKey(cfg, files).value).Some?
              && l.signature.Some? && c.b64Decode(l.signature.value).Some?
              && c.pkcsVerify(c.importPublic(GetPublicKey(cfg, files).value).value,
                              c.sha256(c.utf8(Dumps(Payload(l)))),
                              c.b64Decode(l.signature.value).value)
    ensures r.Ok? && l.signature.None? ==> r == Ok(false)
  {
    var pem :- GetPublicKey(cfg, files);
    match c.importPublic(pem)
    case None => Ok(false)
    case Some(key) =>
      var digest := c.sha256(c.utf8(Dumps(Payload(l))));
      match l.signature
      case None => Ok(false)
      case Some(text) =>
        match c.b64Decode(text)
        case None => Ok(false)
        case Some(raw) => Ok(c.pkcsVerify(key, digest, raw))
  }

  /** The MAC binding holds: no MAC is listed, or one of them equals this host's MAC
      once case is ignored. */
  predicate MacAllowed(b: Bindings, h: Host) {
    |b.mac| == 0 || exists m :: m in b.mac && Lower(m) == PrimaryMac(h.node)
  }

  /** The hostname binding holds: no host is listed, or one of them equals this host's
      name once case is ignored. */
  predicate HostAllowed(b: Bindings, h: Host) {
    |b.host| == 0 || exists n :: n in b.host && Lower(n) == GetHostname(h)
  }

  function LowerAll(xs: seq<string>): (r: seq<string>)
    ensures |r| == |xs|
    ensures forall x :: x in r <==> exists y :: y in xs && Lower(y) == x
  {
    var r := seq(|xs|, i requires 0 <= i < |xs| => Lower(xs[i]));
    assert forall y :: y in xs ==> Lower(y) in r by {
      forall y | y in xs ensures Lower(y) in r {
        var i :| 0 <= i < |xs| && xs[i] == y;
        assert r[i] == Lower(y);
      }
    }
    r
  }

  /** `check_mac_binding`. */
  function CheckMacBinding(l: License, h: Host): (r: bool)
    ensures r <==> MacAllowed(l.bindings, h)
  {
    var allowed := LowerAll(l.bindings.mac);
    if |allowed| == 0 then true else PrimaryMac(h.node) in allowed
  }

  /** `check_hostname_binding`. */
  function CheckHostnameBinding(l: License, h: Host): (r: bool)
    ensures r <==> HostAllowed(l.bindings, h)
  {
    var allowed := LowerAll(l.bindings.host);
    if |allowed| == 0 then true else GetHostname(h) in allowed
  }

  /** `repr` of a list of strings, e.g. `['a', 'b']`. */
  function ReprList(xs: seq<string>): string {
    "[" + Join(", ", seq(|xs|, i requires 0 <= i < |xs| => "'" + xs[i] + "'")) + "]"
  }

  /** The text of a record error; a KeyError prints as its quoted key. */
  function Describe(e: FieldError): string {
    match e
    case MissingKey(k) => "'" + k + "'"
    case NotAnObject(context) => "the " + context + " is not a JSON object"
    case WrongType(field) => "field '" + field + "' has the wrong type"
  }

  /** The verdict for a license that could not be loaded. */
  function LoadFailure(e: LoadError): (v: Verdict)
    ensures v.license.None?
    ensures e.LicenseFileMissing? <==> v.status == FileNotFound
    ensures e.NotJson? <==> v.status == InvalidFormat
    ensures e.BadRecord? <==> v.status == UnknownError
  {
    match e
    case LicenseFileMissing(p) => Verdict(FileNotFound, "License file not found: " + p, None)
    case NotJson => Verdict(InvalidFormat, "Invalid license file format", None)
    case BadRecord(fe) => Verdict(UnknownError, "Error loading license: " + Describe(fe), None)
  }

  function MacMismatchMessage(current: string, allowed: seq<string>): (m: string)
    ensures Contains(m, current)
    ensures Contains(m, ReprList(allowed))
  {
    var tail := ", Allowed: " + ReprList(allowed);
    ContainsInfix("MAC mismatch. Current: ", current, tail);
    ContainsInfix("MAC mismatch. Current: " + current + ", Allowed: ", ReprList(allowed), "");
    assert "MAC mismatch. Current: " + current + ", Allowed: " + ReprList(allowed) + ""
        == "MAC mismatch. Current: " + current + tail;
    "MAC mismatch. Current: " + current + tail
  }

  function HostnameMismatchMessage(current: string, allowed: seq<string>): (m: string)
    ensures Contains(m, current)
    ensures Contains(m, ReprList(allowed))
  {
    var tail := ", Allowed: " + ReprList(allowed);
    ContainsInfix("Hostname mismatch. Current: ", current, tail);
    ContainsInfix("Hostname mismatch. Current: " + current + ", Allowed: ", ReprList(allowed), "");
    assert "Hostname mismatch. Current: " + current + ", Allowed: " + ReprList(allowed) + ""
        == "Hostname mismatch. Current: " + current + tail;
    "Hostname mismatch. Current: " + current + tail
  }

  function ExpiredMessage(expiry: string): (m: string)
    ensures Contains(m, expiry)
  {
    ContainsInfix("License expired on ", expiry, "");
    assert "License expired on " + expiry + "" == "License expired on " + expiry;
    "License expired on " + expiry
  }

  function ValidMessage(customer: string, days: int): (m: string)
    ensures Contains(m, customer)
  {
    var tail := ". Expires in " + IntToString(days) + " days.";
    ContainsInfix("License valid for ", customer, tail);
    "License valid for " + customer + tail
  }

  /** The license loaded, its signature verified, and it has not expired: every stage
      before the binding checks passed. */
  predicate PassedExpiry(cfg: Config, env: Env, p: Platform) {
    var loaded := LoadLicense(cfg, env.files, p.files);
    && loaded.Ok?
    && VerifySignature(cfg, env.files, p.crypto, loaded.value) == Ok(true)
    && IsExpired(loaded.value, env.now, p.isoDay) == Ok(false)
  }

  /** `validate_license(require_bindings)`. A raised exception is an `Err`. */
  function ValidateLicense(cfg: Config, env: Env, p: Platform, requireBindings: bool): (r: Result<Verdict, Fault>)
    // Load failures short-circuit, carrying no license.
    ensures LoadLicense(cfg, env.files, p.files).Err? ==>
              r == Ok(LoadFailure(LoadLicense(cfg, env.files, p.files).error))
    // A signature that does not verify is reported before anything else is looked at.
    ensures r.Ok? && r.value.status == InvalidSignature <==>
              && LoadLicense(cfg, env.files, p.files).Ok?
              && VerifySignature(cfg, env.files, p.crypto, LoadLicense(cfg, env.files, p.files).value) == Ok(false)
    // A license is handed back only once its signature verified.
    ensures r.Ok? && r.value.license.Some? ==>
              && LoadLicense(cfg, env.files, p.files) == Ok(r.value.license.value)
              && VerifySignature(cfg, env.files, p.crypto, r.value.license.value) == Ok(true)
    ensures r.Ok? ==>
              (r.value.license.Some? <==> r.value.status in {Valid, Expired, MacMismatch, HostnameMismatch})
    // Expiry is decided before any binding, and the message names the expiry date.
    ensures r.Ok? && r.value.status == Expired <==>
              && LoadLicense(cfg, env.files, p.files).Ok?
              && VerifySignature(cfg, env.files, p.crypto, LoadLicense(cfg, env.files, p.files).value) == Ok(true)
              && IsExpired(LoadLicense(cfg, env.files, p.files).value, env.now, p.isoDay) == Ok(true)
    ensures r.Ok? && r.value.status == Expired ==> Contains(r.value.message, r.value.license.value.expiry)
    // The load statuses arise only from a failed load, each from its own kind of failure.
    ensures r.Ok? && r.value.status in {FileNotFound, InvalidFormat, UnknownError} ==>
              LoadLicense(cfg, env.files, p.files).Err?
    ensures r.Ok? && r.value.status == FileNotFound <==> cfg.licensePath !in env.files
    ensures r.Ok? && r.value.status == InvalidFormat <==> LoadLicense(cfg, env.files, p.files) == Err(NotJson)
    ensures r.Ok? && r.value.status == UnknownError <==>
              LoadLicense(cfg, env.files, p.files).Err? && LoadLicense(cfg, env.files, p.files).error.BadRecord?
    // MAC before hostname; an empty category never fails.
    ensures r.Ok? && r.value.status == MacMismatch <==>
              && PassedExpiry(cfg, env, p) && requireBindings
              && !MacAllowed(LoadLicense(cfg, env.files, p.files).value.bindings, env.host)
    ensures r.Ok? && r.value.status == HostnameMismatch <==>
              && PassedExpiry(cfg, env, p) && requireBindings
              && MacAllowed(LoadLicense(cfg, env.files, p.files).value.bindings, env.host)
              && !HostAllowed(LoadLicense(cfg, env.files, p.files).value.bindings, env.host)
    // A mismatch message names the current value and the allowed list.
    ensures r.Ok? && r.value.status == MacMismatch ==>
              && Contains(r.value.message, PrimaryMac(env.host.node))
              && Contains(r.value.message, ReprList(r.value.license.value.bindings.mac))
    ensures r.Ok? && r.value.status == HostnameMismatch ==>
              && Contains(r.value.message, GetHostname(env.host))
              && Contains(r.value.message, ReprList(r.value.license.value.bindings.host))
    ensures r.Ok? && r.value.status == Valid <==>
              && PassedExpiry(cfg, env, p)
              && (requireBindings ==>
                    && MacAllowed(LoadLicense(cfg, env.files, p.files).value.bindings, env.host)
                    && HostAllowed(LoadLicense(cfg, env.files, p.files).value.bindings, env.host))
    ensures r.Ok? && r.value.status == Valid ==> Contains(r.value.message, r.value.license.value.customer)
    // What escapes: a missing key file, or an expiry the date parser rejects.
    ensures r.Err? <==>
              && LoadLicense(cfg, env.files, p.files).Ok?
              && (|| GetPublicKey(cfg, env.files).Err?
                  || (&& VerifySignature(cfg, env.files, p.crypto, LoadLicense(cfg, env.files, p.files).value) == Ok(true)
                      && p.isoDay(LoadLicense(cfg, env.files, p.files).value.expiry).None?))
  {
    match LoadLicense(cfg, env.files, p.files)
    case Err(e) => Ok(LoadFailure(e))
    case Ok(l) =>
      var trusted :- VerifySignature(cfg, env.files, p.crypto, l);
      if !trusted then Ok(Verdict(InvalidSignature, "Invalid license signature", None))
      else
        match IsExpired(l, env.now, p.isoDay)
        case Err(e) => Err(BadExpiryDate(e))
        case Ok(expired) =>
          if expired then Ok(Verdict(Expired, ExpiredMessage(l.expiry), Some(l)))
          else if requireBindings && HasBindings(l.bindings)
                  && |l.bindings.mac| > 0 && !CheckMacBinding(l, env.host) then
            Ok(Verdict(MacMismatch, MacMismatchMessage(PrimaryMac(env.host.node), l.bindings.mac), Some(l)))
          else if requireBindings && HasBindings(l.bindings)
                  && |l.bindings.host| > 0 && !CheckHostnameBinding(l, env.host) then
            Ok(Verdict(HostnameMismatch, HostnameMismatchMessage(GetHostname(env.host), l.bindings.host), Some(l)))
          else
            match DaysUntilExpiry(l, env.now, p.isoDay)
            case Err(e) => Err(BadExpiryDate(e))
            case Ok(days) => Ok(Verdict(Valid, ValidMessage(l.customer, days), Some(l)))
  }

  /** A license without bindings validates the same way on every machine. */
  lemma UnboundLicenseIgnoresMachine(cfg: Config, env: Env, p: Platform, requireBindings: bool, other: Host)
    requires LoadLicense(cfg, env.files, p.files).Ok?
    requires !HasBindings(LoadLicense(cfg, env.files, p.files).value.bindings)
    ensures ValidateLicense(cfg, env, p, requireBindings) == ValidateLicense(cfg, env.(host := other), p, requireBindings)
  {
  }

  /** Without `require_bindings` a mismatch is never reported, whatever the machine. */
  lemma BindingsIgnoredWhenNotRequired(cfg: Config, env: Env, p: Platform)
    ensures ValidateLicense(cfg, env, p, false).Ok? ==>
              ValidateLicense(cfg, env, p, false).value.status !in {MacMismatch, HostnameMismatch}
  {
  }

  /** When both bindings fail, the MAC mismatch is the one reported. */
  lemma MacReportedBeforeHostname(cfg: Config, env: Env, p: Platform)
    requires PassedExpiry(cfg, env, p)
    requires !MacAllowed(LoadLicense(cfg, env.files, p.files).value.bindings, env.host)
    requires !HostAllowed(LoadLicense(cfg, env.files, p.files).value.bindings, env.host)
    ensures ValidateLicense(cfg, env, p, true).Ok?
    ensures ValidateLicense(cfg, env, p, true).value.status == MacMismatch
  {
  }

  /** An embedded key makes the key file irrelevant: signature checks agree whatever
      files are present. */
  lemma EmbeddedKeyPreferred(cfg: Config, files: map<string, string>, others: map<string, string>, c: Crypto, l: License)
    requires HasEmbeddedKey(cfg)
    ensures VerifySignature(cfg, files, c, l) == VerifySignature(cfg, others, c, l)
    ensures VerifySignature(cfg, files, c, l).Ok?
  {
  }

  /** The six octets of the node number 0xAABBCCDDEEFF. */
  lemma ExampleOctets()
    ensures OctetAt(0xAABBCCDDEEFF, 40) == 0xaa && OctetAt(0xAABBCCDDEEFF, 32) == 0xbb
    ensures OctetAt(0xAABBCCDDEEFF, 24) == 0xcc && OctetAt(0xAABBCCDDEEFF, 16) == 0xdd
    ensures OctetAt(0xAABBCCDDEEFF, 8) == 0xee && OctetAt(0xAABBCCDDEEFF, 0) == 0xff
  {
    var node := 0xAABBCCDDEEFF;
    Pow2Octets();
    DivModUnique(node, 0x100_0000_0000, 0xaa, 0xbb_ccdd_eeff);
    DivModUnique(0xaa, 256, 0, 0xaa);
    DivModUnique(node, 0x1_0000_0000, 0xaabb, 0xccdd_eeff);
    DivModUnique(0xaabb, 256, 0xaa, 0xbb);
    DivModUnique(node, 0x100_0000, 0xaa_bbcc, 0xdd_eeff);
    DivModUnique(0xaa_bbcc, 256, 0xaabb, 0xcc);
    DivModUnique(node, 0x1_0000, 0xaabb_ccdd, 0xeeff);
    DivModUnique(0xaabb_ccdd, 256, 0xaa_bbcc, 0xdd);
    DivModUnique(node, 0x100, 0xaa_bbcc_ddee, 0xff);
    DivModUnique(0xaa_bbcc_ddee, 256, 0xaabb_ccdd, 0xee);
    DivModUnique(node, 1, node, 0);
    DivModUnique(node, 256, 0xaa_bbcc_ddee, 0xff);
  }

  lemma ExampleHex()
    ensures Hex2(0xaa) == "aa" && Hex2(0xbb) == "bb" && Hex2(0xcc) == "cc"
    ensures Hex2(0xdd) == "dd" && Hex2(0xee) == "ee" && Hex2(0xff) == "ff"
  {
  }

  lemma ExampleJoin()
    ensures Join(":", ["aa", "bb", "cc", "dd", "ee", "ff"]) == "aa:bb:cc:dd:ee:ff"
  {
    assert Join(":", ["ee", "ff"]) == "ee:ff";
    assert Join(":", ["dd", "ee", "ff"]) == "dd:ee:ff";
    assert Join(":", ["cc", "dd", "ee", "ff"]) == "cc:dd:ee:ff";
    assert Join(":", ["bb", "cc", "dd", "ee", "ff"]) == "bb:cc:dd:ee:ff";
  }

  lemma ExampleFormat()
    ensures PrimaryMac(0xAABBCCDDEEFF) == "aa:bb:cc:dd:ee:ff"
  {
    var node := 0xAABBCCDDEEFF;
    var g := Groups(node);
    ExampleOctets();
    ExampleHex();
    assert g[0] == "aa" && g[1] == "bb" && g[2] == "cc";
    assert g[3] == "dd" && g[4] == "ee" && g[5] == "ff";
    assert g == ["aa", "bb", "cc", "dd", "ee", "ff"];
    ExampleJoin();
    assert FormatMac(node) == "aa:bb:cc:dd:ee:ff";
  }

  /** The MAC comparison ignores case: an upper-case entry matches the host's
      lower-case rendering of the same address. */
  lemma {:induction false} UpperCaseMacMatches(l: License)
    requires l.bindings.mac == ["AA:BB:CC:DD:EE:FF"]
    ensures CheckMacBinding(l, Host(0xAABBCCDDEEFF, "build-01"))
  {
    var h := Host(0xAABBCCDDEEFF, "build-01");
    ExampleFormat();
    ExampleLower();
    assert l.bindings.mac[0] in l.bindings.mac;
    assert MacAllowed(l.bindings, h);
  }

  lemma ExampleLower()
    ensures Lower("AA:BB:CC:DD:EE:FF") == "aa:bb:cc:dd:ee:ff"
  {
  }
}

=== FILE: crypto_utils.dfy ===
/** The issuer's signing wrapper (server-application/utils/crypto_utils.py): one
    canonical encoding, sorted-key JSON then UTF-8 then SHA-256, shared by signing and
    verification, with the signature carried as base64 text. */
module CryptoUtils {
  import opened Wrappers
  import opened Json
  import opened CanonicalJson
  import opened Primitives

  /** RSA modulus size the issuer asks the key generator for. */
  const DefaultKeySize: nat := 4096

  /** The digest a signature covers: SHA-256 of the UTF-8 bytes of the canonical text. */
  function Digest(c: Crypto, data: Json): Bytes
    requires WellFormed(data)
  {
    c.sha256(c.utf8(Dumps(data)))
  }

  /** `CryptoUtils.verify_signature`: true when the base64 signature decodes and the
      PKCS#1 v1.5 check passes. Every ValueError/TypeError (no signature at all,
      bad base64, a failed check) comes back as false. */
  function VerifySignature(c: Crypto, data: Json, signature: Option<string>, key: PubKey): (r: bool)
    requires WellFormed(data)
    ensures r <==>
              && signature.Some? && c.b64Decode(signature.value).Some?
              && c.pkcsVerify(key, Digest(c, data), c.b64Decode(signature.value).value)
    ensures signature.None? ==> !r
  {
    match signature
    case None => false
    case Some(text) =>
      match c.b64Decode(text)
      case None => false
      case Some(raw) => c.pkcsVerify(key, Digest(c, data), raw)
  }

  /** `CryptoUtils.sign_data`: the base64 text of the PKCS#1 v1.5 signature of the digest.
      What it returns verifies against the same data under the matching public key. */
  function SignData(c: Crypto, data: Json, key: PrivKey): (r: string)
    requires WellFormed(data)
    ensures CryptoSound(c) ==> VerifySignature(c, data, Some(r), c.publicOf(key))
  {
    c.b64Encode(c.pkcsSign(key, Digest(c, data)))
  }

  /** Signing and verification see only the content of the data, not the order its
      keys were inserted in. */
  lemma SignAndVerifyIgnoreInsertionOrder(c: Crypto, a: Json, b: Json)
    requires WellFormed(a) && WellFormed(b)
    requires SameContent(a, b)
    ensures forall key :: SignData(c, a, key) == SignData(c, b, key)
    ensures forall sig, key :: VerifySignature(c, a, sig, key) == VerifySignature(c, b, sig, key)
  {
    DumpsDeterministic(a, b);
  }

  /** Reading a PEM file failed: FileNotFoundError, or ValueError from `RSA.import_key`. */
  datatype KeyError = KeyFileMissing(path: string) | MalformedKey(path: string)

  /** `CryptoUtils.load_private_key`. */
  function LoadPrivateKey(c: Crypto, files: map<string, string>, path: string): (r: Result<PrivKey, KeyError>)
    ensures r.Err? && path in files ==> r.error == MalformedKey(path)
    ensures path !in files ==> r == Err(KeyFileMissing(path))
    ensures r.Ok? ==> path in files && c.importPrivate(files[path]) == Some(r.value)
  {
    if path !in files then Err(KeyFileMissing(path))
    else match c.importPrivate(files[path])
      case None => Err(MalformedKey(path))
      case Some(k) => Ok(k)
  }

  /** `CryptoUtils.load_public_key`. */
  function LoadPublicKey(c: Crypto, files: map<string, string>, path: string): (r: Result<PubKey, KeyError>)
    ensures r.Err? && path in files ==> r.error == MalformedKey(path)
    ensures path !in files ==> r == Err(KeyFileMissing(path))
    ensures r.Ok? ==> path in files && c.importPublic(files[path]) == Some(r.value)
  {
    if path !in files then Err(KeyFileMissing(path))
    else match c.importPublic(files[path])
      case None => Err(MalformedKey(path))
      case Some(k) => Ok(k)
  }

  /** The files at `pubPath` and `privPath` hold the two halves of key `k`. */
  predicate KeyPairAt(c: Crypto, files: map<string, string>, pubPath: string, privPath: string, k: PrivKey) {
    LoadPrivateKey(c, files, privPath) == Ok(k) && LoadPublicKey(c, files, pubPath) == Ok(c.publicOf(k))
  }

  /** `CryptoUtils.generate_rsa_keypair` with the freshly generated key `newKey` given:
      writes the private PEM, then the public PEM, and returns both paths. */
  function GenerateRsaKeypair(c: Crypto, files: map<string, string>, pubPath: string, privPath: string,
                              newKey: PrivKey): (r: (map<string, string>, (string, string)))
    ensures r.1 == (pubPath, privPath)
    ensures pubPath in r.0 && privPath in r.0
    ensures PemRoundTrips(c) && pubPath != privPath ==> KeyPairAt(c, r.0, pubPath, privPath, newKey)
    ensures forall p :: p != pubPath && p != privPath ==>
              (p in r.0 <==> p in files) && (p in files ==> r.0[p] == files[p])
  {
    var withPrivate := files[privPath := c.exportPrivate(newKey)];
    (withPrivate[pubPath := c.exportPublic(c.publicOf(newKey))], (pubPath, privPath))
  }
}

=== FILE: expiry.dfy ===
/** Clock arithmetic shared by both license models. Instants are microseconds since
    the epoch (the resolution of `datetime.utcnow()`); an expiry date is the day number
    its ISO text parses to, and it is compared at 00:00 UTC of that day. */
module Expiry {

  import opened Wrappers

  /** `datetime.fromisoformat` raised ValueError on this text. */
  datatype DateError = InvalidIsoFormat(text: string)

  /** The day an ISO date text denotes, by the injected parser. */
  function ParseDate(isoDay: string -> Option<int>, text: string): (r: Result<int, DateError>)
    ensures r.Ok? <==> isoDay(text).Some?
    ensures r.Ok? ==> r.value == isoDay(text).value
    ensures r.Err? ==> r.error == InvalidIsoFormat(text)
  {
    match isoDay(text)
    case None => Err(InvalidIsoFormat(text))
    case Some(d) => Ok(d)
  }

  const MicrosPerDay: int := 86_400_000_000

  /** 00:00 UTC of day `day`, the instant `datetime.fromisoformat(date)` denotes. */
  function Midnight(day: int): int {
    day * MicrosPerDay
  }

  /** `utcnow() > expiry_date`: expired strictly after the midnight that starts the day. */
  predicate ExpiredAt(day: int, now: int) {
    now > Midnight(day)
  }

  /** `(expiry_date - utcnow()).days`: whole days to the expiry instant, rounded
      towards minus infinity as `timedelta` normalises. */
  function DaysUntil(day: int, now: int): (r: int)
    ensures r * MicrosPerDay <= Midnight(day) - now < (r + 1) * MicrosPerDay
    ensures r >= 0 <==> !ExpiredAt(day, now)
  {
    (Midnight(day) - now) / MicrosPerDay
  }
}

=== FILE: interop.dfy ===
/** How the two applications fit together: the record the issuer writes is the record
    the client reads, both sides sign and check the same canonical payload, and a
    license issued with a key pair validates on a client holding the public half. */
module Interop {
  import opened Wrappers
  import opened Json
  import opened Primitives
  import opened Expiry
  import C = ClientModel
  import S = ServerModel
  import CryptoUtils
  import CS = ClientService
  import SS = ServerService

  /** The issuer's license as the client's type. */
  function ToClient(l: S.License): (r: C.License)
    ensures r.customer == l.customer && r.expiry == l.expiry && r.signature == l.signature
    ensures r.bindings.mac == l.bindings.mac && r.bindings.host == l.bindings.host
  {
    C.License(l.customer, l.expiry, C.Bindings(l.bindings.mac, l.bindings.host), l.signature)
  }

  /** The client rebuilds exactly the payload the issuer signed. */
  lemma PayloadsAgree(l: S.License)
    ensures C.Payload(ToClient(l)) == S.Payload(l)
  {
  }

  /** The two record loaders accept the same records and read them the same way. */
  lemma LoadersAgree(data: Json)
    ensures C.FromLicenseFile(data).Ok? <==> S.FromLicenseFile(data).Ok?
    ensures S.FromLicenseFile(data).Ok? ==> C.FromLicenseFile(data).value == ToClient(S.FromLicenseFile(data).value)
  {
  }

  /** A record the issuer writes loads on the client as the same license. */
  lemma {:induction false} ClientReadsIssuedRecord(l: S.License)
    ensures C.FromLicenseFile(S.ToLicenseFile(l)) == Ok(ToClient(l))
  {
    S.RecordRoundTrip(l);
    LoadersAgree(S.ToLicenseFile(l));
  }

  /** Both sides judge expiry the same way. */
  lemma ExpiryAgrees(l: S.License, now: int, isoDay: string -> Option<int>)
    ensures C.IsExpired(ToClient(l), now, isoDay) == S.IsExpired(l, now, isoDay)
  {
  }

  /** The client's signature check is the issuer's `verify_signature` on the public key
      the client loaded. */
  lemma ClientVerifyMatchesIssuer(cfg: CS.Config, files: map<string, string>, c: Crypto, l: C.License, key: PubKey)
    requires CS.GetPublicKey(cfg, files).Ok?
    requires c.importPublic(CS.GetPublicKey(cfg, files).value) == Some(key)
    ensures CS.VerifySignature(cfg, files, c, l) == Ok(CryptoUtils.VerifySignature(c, C.Payload(l), l.signature, key))
  {
  }

  /** End to end: with the key pair on disk, a license created by the issuer and read by a
      client that uses the issuer's public-key file validates as VALID before its expiry
      date, provided the client's machine satisfies the bindings when they are enforced. */
  lemma {:induction false} IssuedLicenseValidates(
    scfg: SS.Config, files: map<string, string>, p: Platform, k: PrivKey,
    customer: string, expiry: string, bindMac: Option<seq<string>>, bindHost: Option<seq<string>>,
    outputPath: Option<string>, env: CS.Env, requireBindings: bool)
    requires Sound(p)
    requires CryptoUtils.KeyPairAt(p.crypto, files, SS.PublicKeyPath(scfg), SS.PrivateKeyPath(scfg), k)
    requires SS.LicenseOutputPath(scfg, customer, outputPath) != SS.PublicKeyPath(scfg)
    requires SS.CreateLicense(scfg, files, p, customer, expiry, bindMac, bindHost, outputPath).Ok?
    requires env.files == SS.CreateLicense(scfg, files, p, customer, expiry, bindMac, bindHost, outputPath).value.0
    requires p.isoDay(expiry).Some? && env.now <= Midnight(p.isoDay(expiry).value)
    requires requireBindings ==>
               var b := C.Bindings(SS.OrEmpty(bindMac), SS.OrEmpty(bindHost));
               CS.MacAllowed(b, env.host) && CS.HostAllowed(b, env.host)
    ensures var ccfg := CS.Config(SS.LicenseOutputPath(scfg, customer, outputPath), SS.PublicKeyPath(scfg), None);
            var r := CS.ValidateLicense(ccfg, env, p, requireBindings);
            r.Ok? && r.value.status == C.Valid
  {
    var l := SS.CreateLicense(scfg, files, p, customer, expiry, bindMac, bindHost, outputPath).value.1;
    var ccfg := CS.Config(SS.LicenseOutputPath(scfg, customer, outputPath), SS.PublicKeyPath(scfg), None);
    IssuedFiles(scfg, files, p, k, customer, expiry, bindMac, bindHost, outputPath);
    ClientAccepts(ccfg, env, p, l, k, requireBindings);
  }

  /** What `create_license` leaves on disk for the client: the rendered record at the output
      path, the public key file untouched, and a signature the issuer's check accepts. */
  lemma IssuedFiles(scfg: SS.Config, files: map<string, string>, p: Platform, k: PrivKey,
                    customer: string, expiry: string, bindMac: Option<seq<string>>, bindHost: Option<seq<string>>,
                    outputPath: Option<string>)
    requires Sound(p)
    requires CryptoUtils.KeyPairAt(p.crypto, files, SS.PublicKeyPath(scfg), SS.PrivateKeyPath(scfg), k)
    requires SS.LicenseOutputPath(scfg, customer, outputPath) != SS.PublicKeyPath(scfg)
    requires SS.CreateLicense(scfg, files, p, customer, expiry, bindMac, bindHost, outputPath).Ok?
    ensures var created := SS.CreateLicense(scfg, files, p, customer, expiry, bindMac, bindHost, outputPath).value;
            var out := SS.LicenseOutputPath(scfg, customer, outputPath);
            var pub := SS.PublicKeyPath(scfg);
            && out in created.0 && created.0[out] == p.files.render(S.ToLicenseFile(created.1))
            && pub in created.0 && p.crypto.importPublic(created.0[pub]) == Some(p.crypto.publicOf(k))
            && CryptoUtils.VerifySignature(p.crypto, S.Payload(created.1), created.1.signature, p.crypto.publicOf(k))
            && created.1.expiry == expiry
            && created.1.bindings == S.Bindings(SS.OrEmpty(bindMac), SS.OrEmpty(bindHost))
  {
  }

  /** A client reading an issued record and the issuer's public key accepts it before
      expiry on a machine that satisfies the bindings whenever they are enforced. */
  lemma ClientAccepts(ccfg: CS.Config, env: CS.Env, p: Platform, l: S.License, k: PrivKey, requireBindings: bool)
    requires FilesRoundTrip(p.files)
    requires ccfg.embeddedPubkey.None?
    requires ccfg.licensePath in env.files && env.files[ccfg.licensePath] == p.files.render(S.ToLicenseFile(l))
    requires ccfg.pubkeyPath in env.files && p.crypto.importPublic(env.files[ccfg.pubkeyPath]) == Some(p.crypto.publicOf(k))
    requires CryptoUtils.VerifySignature(p.crypto, S.Payload(l), l.signature, p.crypto.publicOf(k))
    requires p.isoDay(l.expiry).Some? && env.now <= Midnight(p.isoDay(l.expiry).value)
    requires requireBindings ==>
               var b := ToClient(l).bindings;
               CS.MacAllowed(b, env.host) && CS.HostAllowed(b, env.host)
    ensures CS.ValidateLicense(ccfg, env, p, requireBindings).Ok?
    ensures CS.ValidateLicense(ccfg, env, p, requireBindings).value.status == C.Valid
  {
    IssuedRecordLoads(ccfg, env.files, p.files, l);
    IssuedSignatureTrusted(ccfg, env.files, p.crypto, l, k);
    assert C.IsExpired(ToClient(l), env.now, p.isoDay) == Ok(false);
    ValidOncePassed(ccfg, env, p, requireBindings);
  }

  /** A license that passed every stage up to expiry, on a machine that satisfies its
      bindings whenever they are enforced, is VALID. */
  lemma ValidOncePassed(ccfg: CS.Config, env: CS.Env, p: Platform, requireBindings: bool)
    requires CS.PassedExpiry(ccfg, env, p)
    requires requireBindings ==>
               var b := CS.LoadLicense(ccfg, env.files, p.files).value.bindings;
               CS.MacAllowed(b, env.host) && CS.HostAllowed(b, env.host)
    ensures CS.ValidateLicense(ccfg, env, p, requireBindings).Ok?
    ensures CS.ValidateLicense(ccfg, env, p, requireBindings).value.status == C.Valid
  {
  }

  /** The client loads a record the issuer rendered at its license path. */
  lemma IssuedRecordLoads(ccfg: CS.Config, files: map<string, string>, io: JsonFiles, l: S.License)
    requires FilesRoundTrip(io)
    requires ccfg.licensePath in files && files[ccfg.licensePath] == io.render(S.ToLicenseFile(l))
    ensures CS.LoadLicense(ccfg, files, io) == Ok(ToClient(l))
  {
    assert io.parse(files[ccfg.licensePath]) == Some(S.ToLicenseFile(l));
    ClientReadsIssuedRecord(l);
  }

  /** The client trusts a signature the issuer's check accepts under the key it reads. */
  lemma IssuedSignatureTrusted(ccfg: CS.Config, files: map<string, string>, c: Crypto, l: S.License, k: PrivKey)
    requires ccfg.embeddedPubkey.None? && ccfg.pubkeyPath in files
    requires c.importPublic(files[ccfg.pubkeyPath]) == Some(c.publicOf(k))
    requires CryptoUtils.VerifySignature(c, S.Payload(l), l.signature, c.publicOf(k))
    ensures CS.VerifySignature(ccfg, files, c, ToClient(l)) == Ok(true)
  {
    ClientVerifyMatchesIssuer(ccfg, files, c, ToClient(l), c.publicOf(k));
    PayloadsAgree(l);
  }

  /** Without bindings enforced, the issuer's `verify_license` accepts a license file
      exactly when the client, reading the same files with the same public-key file,
      reports it VALID. */
  lemma {:induction false} IssuerAndClientAgree(scfg: SS.Config, files: map<string, string>, p: Platform,
                                                path: string, env: CS.Env)
    requires env.files == files
    ensures var ccfg := CS.Config(path, SS.PublicKeyPath(scfg), None);
            var r := CS.ValidateLicense(ccfg, env, p, false);
            SS.VerifyLicense(scfg, files, p, path, env.now).0 <==> r.Ok? && r.value.status == C.Valid
  {
    var ccfg := CS.Config(path, SS.PublicKeyPath(scfg), None);
    var read := SS.ReadLicense(files, p.files, path);
    var loaded := CS.LoadLicense(ccfg, files, p.files);
    if path in files && p.files.parse(files[path]).Some? {
      LoadersAgree(p.files.parse(files[path]).value);
    }
    assert read.Ok? <==> loaded.Ok?;
    if read.Ok? {
      assert loaded.value == ToClient(read.value);
      ExpiryAgrees(read.value, env.now, p.isoDay);
      PayloadsAgree(read.value);
      var key := CryptoUtils.LoadPublicKey(p.crypto, files, SS.PublicKeyPath(scfg));
      if key.Ok? {
        ClientVerifyMatchesIssuer(ccfg, files, p.crypto, loaded.value, key.value);
      }
      assert SS.Accepted(scfg, files, p, path, env.now) <==> CS.PassedExpiry(ccfg, env, p);
    }
  }
}

=== FILE: json.dfy ===
/** The JSON values that `json.load` produces and `json.dumps` consumes.
    An object keeps its members in insertion order, as a Python dict does. */
module Json {
  import opened Wrappers
  import opened Strings

  datatype Json =
    | JNull
    | JBool(b: bool)
    | JNum(n: int)
    | JStr(s: string)
    | JArr(items: seq<Json>)
    | JObj(members: seq<Member>)

  datatype Member = Member(key: string, value: Json)

  function Keys(ms: seq<Member>): set<string> {
    set m | m in ms :: m.key
  }

  predicate DistinctKeys(ms: seq<Member>) {
    forall i, j :: 0 <= i < j < |ms| ==> ms[i].key != ms[j].key
  }

  /** `d.get(k)`: the value stored under `k`, if any. */
  function Get(ms: seq<Member>, k: string): (r: Option<Json>)
    ensures r.None? <==> k !in Keys(ms)
    ensures r.Some? ==> Member(k, r.value) in ms
  {
    if |ms| == 0 then None
    else if ms[0].key == k then Some(ms[0].value)
    else
      assert forall m :: m in ms ==> m == ms[0] || m in ms[1..];
      Get(ms[1..], k)
  }

  /** In a dict every key occurs once, so a member determines the lookup. */
  lemma GetDistinct(ms: seq<Member>, k: string, v: Json)
    requires DistinctKeys(ms)
    requires Member(k, v) in ms
    ensures Get(ms, k) == Some(v)
  {
    var i :| 0 <= i < |ms| && ms[i] == Member(k, v);
    if i > 0 {
      assert ms[0].key != k;
      assert ms[1..][i - 1] == ms[i];
      GetDistinct(ms[1..], k, v);
    }
  }

  /** Every object has pairwise distinct keys, as every Python dict does. */
  predicate WellFormed(j: Json)
    decreases j
  {
    match j
    case JArr(xs) => forall i :: 0 <= i < |xs| ==> WellFormed(xs[i])
    case JObj(ms) => DistinctKeys(ms) && forall i :: 0 <= i < |ms| ==> WellFormed(ms[i].value)
    case _ => true
  }

  /** Same logical content: arrays agree element by element, objects have the same
      keys bound to values of the same content, whatever their member order. */
  predicate SameContent(a: Json, b: Json)
    decreases a
  {
    match a
    case JArr(xs) =>
      b.JArr? && |xs| == |b.items|
      && forall i :: 0 <= i < |xs| ==> SameContent(xs[i], b.items[i])
    case JObj(ms) =>
      b.JObj? && Keys(ms) == Keys(b.members)
      && forall i :: 0 <= i < |ms| ==>
           var w := Get(b.members, ms[i].key);
           w.Some? && SameContent(ms[i].value, w.value)
    case _ => a == b
  }

  /** JSON string escaping of one character (quote, backslash, and the common
      control characters). */
  function EscapeChar(c: char): string {
    if c == '"' then "\\\""
    else if c == '\\' then "\\\\"
    else if c == '\n' then "\\n"
    else if c == '\r' then "\\r"
    else if c == '\t' then "\\t"
    else [c]
  }

  function Escape(s: string): string
    decreases |s|
  {
    if |s| == 0 then "" else EscapeChar(s[0]) + Escape(s[1..])
  }

  function Quote(s: string): string {
    "\"" + Escape(s) + "\""
  }

  /** `json.dumps` text of a value, members in the order given, with the default
      separators ", " and ": ". */
  function Print(j: Json): string
    decreases j
  {
    match j
    case JNull => "null"
    case JBool(b) => if b then "true" else "false"
    case JNum(n) => IntToString(n)
    case JStr(s) => Quote(s)
    case JArr(xs) =>
      "[" + Join(", ", seq(|xs|, i requires 0 <= i < |xs| => Print(xs[i]))) + "]"
    case JObj(ms) =>
      "{" + Join(", ", seq(|ms|, i requires 0 <= i < |ms| => Quote(ms[i].key) + ": " + Print(ms[i].value))) + "}"
  }

  // Reading fields of a loaded record.

  /** Why reading a record failed: subscripting something that is not a dict
      (TypeError/AttributeError), a missing key (KeyError), or a field of the wrong
      JSON type. */
  datatype FieldError = NotAnObject(context: string) | MissingKey(key: string) | WrongType(field: string)

  /** A list of strings as a JSON array. */
  function StrArray(xs: seq<string>): (r: Json)
    ensures r.JArr? && |r.items| == |xs|
    ensures WellFormed(r)
  {
    JArr(seq(|xs|, i requires 0 <= i < |xs| => JStr(xs[i])))
  }

  /** The strings of a JSON array of strings; `None` for anything else. */
  function AsStrList(j: Json): (r: Option<seq<string>>)
    ensures r.Some? ==> StrArray(r.value) == j
  {
    if j.JArr? && forall i :: 0 <= i < |j.items| ==> j.items[i].JStr? then
      var xs := seq(|j.items|, i requires 0 <= i < |j.items| => j.items[i].s);
      assert StrArray(xs).items == j.items;
      Some(xs)
    else None
  }

  lemma StrArrayRoundTrip(xs: seq<string>)
    ensures AsStrList(StrArray(xs)) == Some(xs)
  {
    var j := StrArray(xs);
    assert forall i :: 0 <= i < |j.items| ==> j.items[i] == JStr(xs[i]);
    var ys := seq(|j.items|, i requires 0 <= i < |j.items| => j.items[i].s);
    assert ys == xs;
  }

  /** `data[key]`, for the record part named `context`. */
  function Field(data: Json, key: string, context: string): (r: Result<Json, FieldError>)
    ensures r.Ok? <==> data.JObj? && Get(data.members, key).Some?
    ensures r.Ok? ==> Member(key, r.value) in data.members
  {
    if !data.JObj? then Err(NotAnObject(context))
    else match Get(data.members, key)
      case None => Err(MissingKey(key))
      case Some(v) => Ok(v)
  }

  /** `data[key]`, required to be a string. */
  function StrField(data: Json, key: string, context: string): (r: Result<string, FieldError>)
    ensures r.Ok? ==> data.JObj? && Get(data.members, key) == Some(JStr(r.value))
  {
    var v :- Field(data, key, context);
    if v.JStr? then Ok(v.s) else Err(WrongType(key))
  }

  /** `data.get(key, [])`, required to be a list of strings. */
  function StrListField(data: Json, key: string): (r: Result<seq<string>, FieldError>)
    ensures data.JObj? && Get(data.members, key).None? ==> r == Ok([])
    ensures r.Ok? && data.JObj? && Get(data.members, key).Some? ==>
              Get(data.members, key) == Some(StrArray(r.value))
  {
    if !data.JObj? then Err(NotAnObject(key))
    else match Get(data.members, key)
      case None => Ok([])
      case Some(v) =>
        match AsStrList(v)
        case None => Err(WrongType(key))
        case Some(xs) => Ok(xs)
  }
}

=== FILE: machine_utils.dfy ===
/** Machine identity for binding checks (client-application/utils/machine_utils.py).
    The operating system's answers, `uuid.getnode()` and `socket.gethostname()`, are
    inputs; what is modelled is how they are formatted. */
module MachineUtils {
  import opened Wrappers
  import opened Strings
  import opened Json

  /** What the host reports: its 48-bit hardware node number and its configured name. */
  datatype Host = Host(node: int, name: string)

  function Pow2(n: nat): (r: int)
    ensures r > 0
  {
    if n == 0 then 1 else 2 * Pow2(n - 1)
  }

  /** `(mac_int >> offset) & 0xff`. Python's `>>` rounds towards minus infinity and `&`
      acts on two's complement, which Dafny's `/` and `%` by positive divisors match. */
  function OctetAt(node: int, offset: nat): (b: int)
    ensures 0 <= b < 256
  {
    (node / Pow2(offset)) % 256
  }

  const HexDigits: string := "0123456789abcdef"

  /** `f"{b:02x}"`. */
  function Hex2(b: int): (r: string)
    requires 0 <= b < 256
    ensures |r| == 2
  {
    [HexDigits[b / 16], HexDigits[b % 16]]
  }

  /** The six two-digit groups for offsets 40, 32, ..., 0, most significant first. */
  function Groups(node: int): (g: seq<string>)
    ensures |g| == 6
    ensures forall i :: 0 <= i < 6 ==> g[i] == Hex2(OctetAt(node, 40 - 8 * i))
  {
    seq(6, i requires 0 <= i < 6 => Hex2(OctetAt(node, 40 - 8 * i)))
  }

  function FormatMac(node: int): string {
    Join(":", Groups(node))
  }

  predicate IsHexDigit(c: char) {
    '0' <= c <= '9' || 'a' <= c <= 'f' || 'A' <= c <= 'F'
  }

  function HexValue(c: char): (v: int)
    requires IsHexDigit(c)
    ensures 0 <= v < 16
  {
    if '0' <= c <= '9' then c as int - '0' as int
    else if 'a' <= c <= 'f' then c as int - 'a' as int + 10
    else c as int - 'A' as int + 10
  }

  /** Text of the form `hh:hh:hh:hh:hh:hh`. */
  predicate IsMacText(s: string) {
    |s| == 17
    && forall i :: 0 <= i < 17 ==> if i % 3 == 2 then s[i] == ':' else IsHexDigit(s[i])
  }

  function OctetOf(s: string, k: int): (v: int)
    requires IsMacText(s) && 0 <= k < 6
    ensures 0 <= v < 256
  {
    HexValue(s[3 * k]) * 16 + HexValue(s[3 * k + 1])
  }

  /** Reads a MAC text back as the number it denotes, most significant group first. */
  function ParseMac(s: string): (r: Option<int>)
    ensures r.Some? <==> IsMacText(s)
  {
    if IsMacText(s) then
      Some(((((OctetOf(s, 0) * 256 + OctetOf(s, 1)) * 256 + OctetOf(s, 2)) * 256
             + OctetOf(s, 3)) * 256 + OctetOf(s, 4)) * 256 + OctetOf(s, 5))
    else None
  }

  /** `Join(":", g)` of two-character groups puts group `i` at 3*i, a colon after each
      group but the last. */
  lemma {:induction false} JoinPairs(g: seq<string>)
    requires |g| > 0 && forall i :: 0 <= i < |g| ==> |g[i]| == 2
    ensures |Join(":", g)| == 3 * |g| - 1
    ensures forall i, t :: 0 <= i < |g| && 0 <= t < 2 ==> Join(":", g)[3 * i + t] == g[i][t]
    ensures forall i :: 0 <= i < |g| - 1 ==> Join(":", g)[3 * i + 2] == ':'
    decreases |g|
  {
    if |g| > 1 {
      var rest := Join(":", g[1..]);
      JoinPairs(g[1..]);
      var s := Join(":", g);
      assert s == g[0] + ":" + rest;
      forall i, t | 0 < i < |g| && 0 <= t < 2 ensures s[3 * i + t] == g[i][t] {
        assert s[3 * i + t] == rest[3 * (i - 1) + t];
        assert g[1..][i - 1] == g[i];
      }
      forall i | 0 < i < |g| - 1 ensures s[3 * i + 2] == ':' {
        assert s[3 * i + 2] == rest[3 * (i - 1) + 2];
      }
    }
  }

  lemma HexDigitValue(d: int)
    requires 0 <= d < 16
    ensures IsHexDigit(HexDigits[d]) && HexValue(HexDigits[d]) == d
  {
  }

  /** The formatted MAC has the `hh:hh:hh:hh:hh:hh` shape, only lower-case characters,
      and group `k` reads back as the octet at offset 40 - 8k. */
  lemma FormatMacShape(node: int)
    ensures IsMacText(FormatMac(node)) && IsLowerCase(FormatMac(node))
    ensures forall k :: 0 <= k < 6 ==> OctetOf(FormatMac(node), k) == OctetAt(node, 40 - 8 * k)
  {
    var g := Groups(node);
    var s := FormatMac(node);
    JoinPairs(g);
    forall k | 0 <= k < 6
      ensures IsHexDigit(s[3 * k]) && IsHexDigit(s[3 * k + 1])
      ensures HexValue(s[3 * k]) * 16 + HexValue(s[3 * k + 1]) == OctetAt(node, 40 - 8 * k)
      ensures !IsUpper(s[3 * k]) && !IsUpper(s[3 * k + 1])
    {
      var b := OctetAt(node, 40 - 8 * k);
      assert g[k] == Hex2(b);
      assert s[3 * k] == g[k][0] && s[3 * k + 1] == g[k][1];
      HexDigitValue(b / 16);
      HexDigitValue(b % 16);
    }
    forall i | 0 <= i < 17
      ensures if i % 3 == 2 then s[i] == ':' else IsHexDigit(s[i])
      ensures !IsUpper(s[i])
    {
      var k := i / 3;
      assert i == 3 * k + i % 3;
    }
  }

  /** `MachineUtils.get_primary_mac`: the node number as `xx:xx:xx:xx:xx:xx` lower-case hex. */
  function PrimaryMac(node: int): (r: string)
    ensures |r| == 17 && IsMacText(r) && IsLowerCase(r)
    ensures r == FormatMac(node)
  {
    FormatMacShape(node);
    LowerOfLowerCase(FormatMac(node));
    Lower(FormatMac(node))
  }

  // Arithmetic behind the round trip.

  lemma {:induction false} Pow2Add(a: nat, b: nat)
    ensures Pow2(a + b) == Pow2(a) * Pow2(b)
    decreases a
  {
    if a > 0 {
      Pow2Add(a - 1, b);
    }
  }

  lemma Pow2Byte()
    ensures Pow2(8) == 256
  {
    assert Pow2(1) == 2 && Pow2(2) == 4 && Pow2(3) == 8 && Pow2(4) == 16;
    assert Pow2(5) == 32 && Pow2(6) == 64 && Pow2(7) == 128;
  }

  lemma Pow2Octets()
    ensures Pow2(0) == 1 && Pow2(8) == 0x100 && Pow2(16) == 0x1_0000 && Pow2(24) == 0x100_0000
    ensures Pow2(32) == 0x1_0000_0000 && Pow2(40) == 0x100_0000_0000 && Pow2(48) == 0x1_0000_0000_0000
  {
    Pow2Byte();
    Pow2Add(8, 8);
    Pow2Add(16, 8);
    Pow2Add(24, 8);
    Pow2Add(32, 8);
    Pow2Add(40, 8);
  }

  /** Euclidean division is unique. */
  lemma DivModUnique(n: int, d: int, q: int, r: int)
    requires d > 0 && 0 <= r < d && n == q * d + r
    ensures n / d == q && n % d == r
  {
    var e := q - n / d;
    assert e * d == n % d - r;
    assert e >= 1 ==> e * d >= d;
    assert e <= -1 ==> e * d <= -d;
  }

  lemma MulMonotone(x: int, y: int, p: int)
    requires x <= y && p >= 0
    ensures x * p <= y * p
  {
  }

  lemma Regroup(hi: int, b: int, p: int, r: int)
    ensures (hi * 256 + b) * p + r == hi * (256 * p) + (b * p + r)
  {
  }

  /** Keeping one more octet adds that octet at its place value. */
  lemma LowOctetsStep(node: int, n: nat)
    ensures node % Pow2(8 * n + 8) == OctetAt(node, 8 * n) * Pow2(8 * n) + node % Pow2(8 * n)
  {
    var p := Pow2(8 * n);
    Pow2Byte();
    Pow2Add(8 * n, 8);
    assert Pow2(8 * n + 8) == 256 * p;
    var q, r := node / p, node % p;
    var hi, b := q / 256, q % 256;
    assert node == q * p + r;
    assert q == hi * 256 + b;
    Regroup(hi, b, p, r);
    MulMonotone(b, 255, p);
    DivModUnique(node, 256 * p, hi, b * p + r);
  }

  /** The six octets, read most significant first, make up the low 48 bits. */
  lemma OctetsCompose(node: int)
    ensures ((((OctetAt(node, 40) * 256 + OctetAt(node, 32)) * 256 + OctetAt(node, 24)) * 256
             + OctetAt(node, 16)) * 256 + OctetAt(node, 8)) * 256 + OctetAt(node, 0)
            == node % 0x1_0000_0000_0000
  {
    Pow2Octets();
    LowOctetsStep(node, 0);
    LowOctetsStep(node, 1);
    LowOctetsStep(node, 2);
    LowOctetsStep(node, 3);
    LowOctetsStep(node, 4);
    LowOctetsStep(node, 5);
  }

  /** Parsing the formatted MAC gives back `mac_int & 0xFFFFFFFFFFFF`. */
  lemma MacRoundTrip(node: int)
    ensures ParseMac(PrimaryMac(node)) == Some(node % 0x1_0000_0000_0000)
  {
    var s := PrimaryMac(node);
    FormatMacShape(node);
    assert OctetOf(s, 0) == OctetAt(node, 40) && OctetOf(s, 1) == OctetAt(node, 32);
    assert OctetOf(s, 2) == OctetAt(node, 24) && OctetOf(s, 3) == OctetAt(node, 16);
    assert OctetOf(s, 4) == OctetAt(node, 8) && OctetOf(s, 5) == OctetAt(node, 0);
    OctetsCompose(node);
  }

  /** Distinct 48-bit node numbers format to distinct MAC texts. */
  lemma PrimaryMacInjective(a: int, b: int)
    requires 0 <= a < 0x1_0000_0000_0000 && 0 <= b < 0x1_0000_0000_0000
    requires PrimaryMac(a) == PrimaryMac(b)
    ensures a == b
  {
    MacRoundTrip(a);
    MacRoundTrip(b);
    SameReadingSameNode(ParseMac(PrimaryMac(a)), ParseMac(PrimaryMac(b)), a, b);
  }

  lemma SameReadingSameNode(ra: Option<int>, rb: Option<int>, a: int, b: int)
    requires 0 <= a < 0x1_0000_0000_0000 && 0 <= b < 0x1_0000_0000_0000
    requires ra == Some(a % 0x1_0000_0000_0000) && rb == Some(b % 0x1_0000_0000_0000) && ra == rb
    ensures a == b
  {
  }

  /** `MachineUtils.get_hostname`: the host name, lower-cased. */
  function GetHostname(h: Host): (r: string)
    ensures |r| == |h.name| && IsLowerCase(r)
    ensures forall i :: 0 <= i < |r| ==> r[i] == LowerChar(h.name[i])
    ensures Lower(r) == r
  {
    LowerIdempotent(h.name);
    Lower(h.name)
  }

  /** `MachineUtils.get_all_mac_addresses`: only the primary MAC, even on a host with
      several interfaces. */
  function AllMacAddresses(h: Host): (r: seq<string>)
    ensures |r| == 1 && forall m :: m in r <==> m == PrimaryMac(h.node)
  {
    [PrimaryMac(h.node)]
  }

  /** `MachineUtils.get_machine_fingerprint`. */
  function MachineFingerprint(h: Host): (r: Json)
    ensures r.JObj? && WellFormed(r) && Keys(r.members) == {"mac", "hostname"}
    ensures Get(r.members, "mac") == Some(JStr(PrimaryMac(h.node)))
    ensures Get(r.members, "hostname") == Some(JStr(GetHostname(h)))
  {
    JObj([Member("mac", JStr(PrimaryMac(h.node))), Member("hostname", JStr(GetHostname(h)))])
  }
}

=== FILE: primitives.dfy ===
/** The collaborators the licensing core calls but does not implement: the
    cryptographic library (UTF-8, SHA-256, RSASSA-PKCS1-v1_5, base64, PEM key import
    and export), the JSON reader and writer used for license files, and the ISO 8601
    date parser. Each is a function-valued field; `Sound` states, as a hypothesis,
    the laws the library documents for them. */
module Primitives {
  import opened Wrappers
  import opened Json

  type Byte = x: int | 0 <= x < 256
  type Bytes = seq<Byte>

  /** An RSA private key and the public key derived from it, known only by identity. */
  datatype PrivKey = PrivKey(id: nat)
  datatype PubKey = PubKey(id: nat)

  datatype Crypto = Crypto(
    utf8: string -> Bytes,                      // str.encode('utf-8')
    sha256: Bytes -> Bytes,                     // SHA256.new(data), FIPS 180-4
    pkcsSign: (PrivKey, Bytes) -> Bytes,        // pkcs1_15.new(key).sign(h), section 8.2 of RFC 8017
    pkcsVerify: (PubKey, Bytes, Bytes) -> bool, // pkcs1_15.new(key).verify(h, sig) returned (no ValueError)
    publicOf: PrivKey -> PubKey,                // key.publickey()
    b64Encode: Bytes -> string,                 // base64.b64encode(...).decode('utf-8'), section 4 of RFC 4648
    b64Decode: string -> Option<Bytes>,         // base64.b64decode; None for binascii.Error (a ValueError)
    importPublic: string -> Option<PubKey>,     // RSA.import_key on a public PEM; None for ValueError
    importPrivate: string -> Option<PrivKey>,   // RSA.import_key on a private PEM; None for ValueError
    exportPublic: PubKey -> string,             // key.export_key() of a public key
    exportPrivate: PrivKey -> string)           // key.export_key() of a private key

  /** `json.load` of a file's text (None for JSONDecodeError) and `json.dump(..., indent=2)`. */
  datatype JsonFiles = JsonFiles(parse: string -> Option<Json>, render: Json -> string)

  datatype Platform = Platform(
    crypto: Crypto,
    files: JsonFiles,
    isoDay: string -> Option<int>)  // datetime.fromisoformat of a date: its day number; None for ValueError

  /** A PKCS#1 v1.5 signature made with a private key verifies under its public key. */
  ghost predicate SignaturesVerify(c: Crypto) {
    forall k: PrivKey, h: Bytes :: c.pkcsVerify(c.publicOf(k), h, c.pkcsSign(k, h))
  }

  /** base64 decoding undoes base64 encoding. */
  ghost predicate Base64RoundTrips(c: Crypto) {
    forall b: Bytes :: c.b64Decode(c.b64Encode(b)) == Some(b)
  }

  /** Importing an exported PEM gives back the key. */
  ghost predicate PemRoundTrips(c: Crypto) {
    && (forall k: PubKey :: c.importPublic(c.exportPublic(k)) == Some(k))
    && (forall k: PrivKey :: c.importPrivate(c.exportPrivate(k)) == Some(k))
  }

  ghost predicate CryptoSound(c: Crypto) {
    SignaturesVerify(c) && Base64RoundTrips(c) && PemRoundTrips(c)
  }

  /** Reading back a written license file gives back the same dict, and whatever
      `json.load` returns has distinct keys (a repeated key keeps its last value). */
  ghost predicate FilesRoundTrip(f: JsonFiles) {
    && (forall j: Json :: WellFormed(j) ==> f.parse(f.render(j)) == Some(j))
    && (forall t: string :: f.parse(t).Some? ==> WellFormed(f.parse(t).value))
  }

  ghost predicate Sound(p: Platform) {
    CryptoSound(p.crypto) && FilesRoundTrip(p.files)
  }
}

=== FILE: server_model.dfy ===
/** The issuer's license value types and their persisted record form
    (server-application/models/license_model.py). */
module ServerModel {
  import opened Wrappers
  import opened Json
  import opened Expiry

  datatype Bindings = Bindings(mac: seq<string>, host: seq<string>)

  const NoBindings := Bindings([], [])

  datatype License = License(customer: string, expiry: string, bindings: Bindings, signature: Option<string>)

  /** `LicenseBindings.to_dict`: an empty category is left out of the dict. */
  function ToDict(b: Bindings): (r: Json)
    ensures r.JObj? && WellFormed(r)
    ensures Keys(r.members) <= {"mac", "host"}
    ensures Get(r.members, "mac") == if |b.mac| == 0 then None else Some(StrArray(b.mac))
    ensures Get(r.members, "host") == if |b.host| == 0 then None else Some(StrArray(b.host))
  {
    var macPart := if |b.mac| == 0 then [] else [Member("mac", StrArray(b.mac))];
    var hostPart := if |b.host| == 0 then [] else [Member("host", StrArray(b.host))];
    JObj(macPart + hostPart)
  }

  /** `LicenseBindings.from_dict`: an absent category reads as an empty list. */
  function FromDict(data: Json): (r: Result<Bindings, FieldError>)
    ensures data.JObj? && Get(data.members, "mac").None? && Get(data.members, "host").None? ==>
              r == Ok(NoBindings)
    ensures r.Ok? ==> data.JObj?
  {
    var mac :- StrListField(data, "mac");
    var host :- StrListField(data, "host");
    Ok(Bindings(mac, host))
  }

  /** Bindings survive the trip through their dict form, empty categories included. */
  lemma BindingsRoundTrip(b: Bindings)
    ensures FromDict(ToDict(b)) == Ok(b)
  {
    StrArrayRoundTrip(b.mac);
    StrArrayRoundTrip(b.host);
  }

  /** `License.get_payload`: the dict the issuer signs. */
  function Payload(l: License): (r: Json)
    ensures r.JObj? && WellFormed(r)
    ensures Keys(r.members) == {"customer", "expiry", "binds"}
    ensures Get(r.members, "customer") == Some(JStr(l.customer))
    ensures Get(r.members, "expiry") == Some(JStr(l.expiry))
    ensures Get(r.members, "binds") == Some(ToDict(l.bindings))
  {
    var ms := [Member("customer", JStr(l.customer)), Member("expiry", JStr(l.expiry)),
               Member("binds", ToDict(l.bindings))];
    assert WellFormed(ms[0].value) && WellFormed(ms[1].value) && WellFormed(ms[2].value);
    assert DistinctKeys(ms);
    assert Keys(ms) == {"customer", "expiry", "binds"};
    JObj(ms)
  }

  function SignatureJson(sig: Option<string>): Json {
    match sig
    case None => JNull
    case Some(s) => JStr(s)
  }

  /** `License.to_license_file`: the record written to disk. */
  function ToLicenseFile(l: License): (r: Json)
    ensures r.JObj? && WellFormed(r)
    ensures Keys(r.members) == {"payload", "signature"}
    ensures Get(r.members, "payload") == Some(Payload(l))
    ensures l.signature.None? ==> Get(r.members, "signature") == Some(JNull)
    ensures l.signature.Some? ==> Get(r.members, "signature") == Some(JStr(l.signature.value))
  {
    var ms := [Member("payload", Payload(l)), Member("signature", SignatureJson(l.signature))];
    assert WellFormed(ms[0].value) && WellFormed(ms[1].value);
    assert DistinctKeys(ms);
    JObj(ms)
  }

  function BindsOf(payload: Json): Json
    requires payload.JObj?
  {
    match Get(payload.members, "binds")
    case None => JObj([])
    case Some(v) => v
  }

  /** `data.get("signature")`; a value that is not a string loads as `None`. */
  function SignatureOf(data: Json): Option<string>
    requires data.JObj?
  {
    match Get(data.members, "signature")
    case Some(JStr(s)) => Some(s)
    case _ => None
  }

  /** `License.from_license_file`. */
  function FromLicenseFile(data: Json): (r: Result<License, FieldError>)
    ensures data.JObj? && Get(data.members, "payload").None? ==> r == Err(MissingKey("payload"))
    ensures r.Ok? ==> data.JObj?
    ensures r.Ok? && Get(data.members, "signature").None? ==> r.value.signature.None?
  {
    var payload :- Field(data, "payload", "record");
    var customer :- StrField(payload, "customer", "payload");
    var expiry :- StrField(payload, "expiry", "payload");
    var bindings :- FromDict(BindsOf(payload));
    Ok(License(customer, expiry, bindings, SignatureOf(data)))
  }

  /** Every license survives the trip through its record form, unsigned ones included. */
  lemma RecordRoundTrip(l: License)
    ensures FromLicenseFile(ToLicenseFile(l)) == Ok(l)
  {
    var rec := ToLicenseFile(l);
    var p := Payload(l);
    assert Get(p.members, "binds") == Some(ToDict(l.bindings));
    BindingsRoundTrip(l.bindings);
  }

  /** `License.is_expired` at instant `now`; a date the parser rejects raises. */
  function IsExpired(l: License, now: int, isoDay: string -> Option<int>): (r: Result<bool, DateError>)
    ensures r.Err? <==> isoDay(l.expiry).None?
    ensures r.Ok? ==> (r.value <==> now > Midnight(isoDay(l.expiry).value))
  {
    var day :- ParseDate(isoDay, l.expiry);
    Ok(ExpiredAt(day, now))
  }
}

=== FILE: server_service.dfy ===
/** The issuer's service (server-application/services/license_service.py): the key-pair
    gate, signing and saving a license, and checking a license file. */
module ServerService {
  import opened Wrappers
  import opened Strings
  import opened Json
  import opened Primitives
  import opened Expiry
  import opened ServerModel
  import opened CryptoUtils

  /** The key directory and the default directory for issued licenses. */
  datatype Config = Config(keysDir: string, licensesDir: string)

  /** `public_key_path`: `pub.pem` inside the key directory. */
  function PublicKeyPath(cfg: Config): (r: string)
    ensures |r| > |cfg.keysDir| && r[..|cfg.keysDir|] == cfg.keysDir
    ensures r[|cfg.keysDir|..] == "/pub.pem"
  {
    cfg.keysDir + "/pub.pem"
  }

  /** `private_key_path`: `priv.pem` inside the key directory. */
  function PrivateKeyPath(cfg: Config): (r: string)
    ensures |r| > |cfg.keysDir| && r[..|cfg.keysDir|] == cfg.keysDir
    ensures r[|cfg.keysDir|..] == "/priv.pem"
  {
    cfg.keysDir + "/priv.pem"
  }

  /** The two key files never coincide, whatever the directory. */
  lemma KeyPathsDiffer(cfg: Config)
    ensures PublicKeyPath(cfg) != PrivateKeyPath(cfg)
  {
    var k := |cfg.keysDir|;
    assert PublicKeyPath(cfg)[k + 2] == 'u';
    assert PrivateKeyPath(cfg)[k + 2] == 'r';
  }

  /** `keys_exist`: both halves are on disk. */
  function KeysExist(cfg: Config, files: map<string, string>): (r: bool)
    ensures r <==> {PublicKeyPath(cfg), PrivateKeyPath(cfg)} <= files.Keys
  {
    PublicKeyPath(cfg) in files && PrivateKeyPath(cfg) in files
  }

  /** FileExistsError from `generate_keys`, FileNotFoundError from `create_license`, and
      the errors of loading the private key. */
  datatype ServiceError = KeysAlreadyExist | KeysNotFound | KeyUnreadable(error: KeyError)

  /** `generate_keys(force)`, with the freshly generated key given as `newKey`. */
  function GenerateKeys(cfg: Config, files: map<string, string>, c: Crypto, newKey: PrivKey, force: bool)
    : (r: Result<(map<string, string>, (string, string)), ServiceError>)
    ensures r.Err? <==> KeysExist(cfg, files) && !force
    ensures r.Err? ==> r.error == KeysAlreadyExist
    ensures r.Ok? ==> r.value.1 == (PublicKeyPath(cfg), PrivateKeyPath(cfg)) && KeysExist(cfg, r.value.0)
    ensures r.Ok? && PemRoundTrips(c) ==> KeyPairAt(c, r.value.0, PublicKeyPath(cfg), PrivateKeyPath(cfg), newKey)
    ensures r.Ok? ==> forall p :: p != PublicKeyPath(cfg) && p != PrivateKeyPath(cfg) ==>
              (p in r.value.0 <==> p in files) && (p in files ==> r.value.0[p] == files[p])
  {
    if KeysExist(cfg, files) && !force then Err(KeysAlreadyExist)
    else
      KeyPathsDiffer(cfg);
      Ok(GenerateRsaKeypair(c, files, PublicKeyPath(cfg), PrivateKeyPath(cfg), newKey))
  }

  predicate IsAsciiAlnum(c: char) {
    'a' <= c <= 'z' || 'A' <= c <= 'Z' || '0' <= c <= '9'
  }

  /** A character a derived file name may hold: a lower-case letter, a digit, or `_`. */
  predicate IsSafeChar(c: char) {
    'a' <= c <= 'z' || '0' <= c <= '9' || c == '_'
  }

  /** The customer name turned into a file name: letters and digits kept, everything
      else `_`, then lower-cased. */
  function SafeFileName(customer: string): (r: string)
    ensures |r| == |customer|
    ensures forall i :: 0 <= i < |r| ==> IsSafeChar(r[i])
    ensures forall i :: 0 <= i < |r| ==> (r[i] == '_' <==> !IsAsciiAlnum(customer[i]) || customer[i] == '_')
    ensures forall i :: 0 <= i < |r| && IsAsciiAlnum(customer[i]) ==> r[i] == LowerChar(customer[i])
  {
    Lower(seq(|customer|, i requires 0 <= i < |customer| => if IsAsciiAlnum(customer[i]) then customer[i] else '_'))
  }

  /** A name made only of safe characters is its own file name. */
  lemma {:induction false} SafeFileNameFixes(s: string)
    ensures SafeFileName(s) == s <==> forall i :: 0 <= i < |s| ==> IsSafeChar(s[i])
  {
    var r := SafeFileName(s);
    if forall i :: 0 <= i < |s| ==> IsSafeChar(s[i]) {
      forall i | 0 <= i < |s| ensures r[i] == s[i] {
        if s[i] != '_' {
          assert IsAsciiAlnum(s[i]) && !IsUpper(s[i]);
        }
      }
    }
  }

  /** Sanitising twice is sanitising once. */
  lemma SafeFileNameIdempotent(customer: string)
    ensures SafeFileName(SafeFileName(customer)) == SafeFileName(customer)
  {
    SafeFileNameFixes(SafeFileName(customer));
  }

  /** Different customers can share a file name, so a later license overwrites an earlier one. */
  lemma CustomerFileNamesCollide()
    ensures SafeFileName("Acme Corp") == SafeFileName("acme_corp")
  {
    SafeFileNameFixes("acme_corp");
    assert SafeFileName("acme_corp") == "acme_corp";
    var r := SafeFileName("Acme Corp");
    assert r[0] == 'a' && r[1] == 'c' && r[2] == 'm' && r[3] == 'e' && r[4] == '_';
    assert r[5] == 'c' && r[6] == 'o' && r[7] == 'r' && r[8] == 'p';
  }

  /** Where `create_license` writes: a non-empty explicit path, else
      `<licenses_dir>/<safe name>.lic`. */
  function LicenseOutputPath(cfg: Config, customer: string, outputPath: Option<string>): (r: string)
    ensures outputPath.Some? && outputPath.value != "" ==> r == outputPath.value
    ensures outputPath.None? || outputPath.value == "" ==>
              r == cfg.licensesDir + "/" + SafeFileName(customer) + ".lic"
  {
    if outputPath.Some? && outputPath.value != "" then outputPath.value
    else cfg.licensesDir + "/" + SafeFileName(customer) + ".lic"
  }

  /** `bind_mac or []`: an absent list binds nothing. */
  function OrEmpty(xs: Option<seq<string>>): (r: seq<string>)
    ensures xs.Some? ==> r == xs.value
    ensures xs.None? ==> r == []
  {
    if xs.Some? then xs.value else []
  }

  /** `create_license`: checks the key pair exists, builds the license, signs its payload
      with the private key, and writes the record. Returns the new file map and the
      signed license. */
  function CreateLicense(cfg: Config, files: map<string, string>, p: Platform,
                         customer: string, expiry: string,
                         bindMac: Option<seq<string>>, bindHost: Option<seq<string>>,
                         outputPath: Option<string>): (r: Result<(map<string, string>, License), ServiceError>)
    ensures !KeysExist(cfg, files) ==> r == Err(KeysNotFound)
    ensures r.Err? <==> !KeysExist(cfg, files) || LoadPrivateKey(p.crypto, files, PrivateKeyPath(cfg)).Err?
    ensures r.Ok? ==>
              var l := r.value.1;
              && l.customer == customer && l.expiry == expiry
              && l.bindings == Bindings(OrEmpty(bindMac), OrEmpty(bindHost))
              && l.signature.Some?
    // The signature covers the payload and verifies under the matching public key.
    ensures r.Ok? && CryptoSound(p.crypto) ==>
              var key := LoadPrivateKey(p.crypto, files, PrivateKeyPath(cfg)).value;
              CryptoUtils.VerifySignature(p.crypto, Payload(r.value.1), r.value.1.signature, p.crypto.publicOf(key))
    // Exactly one file is written, and it reads back as the returned license.
    ensures r.Ok? ==>
              var out := LicenseOutputPath(cfg, customer, outputPath);
              && out in r.value.0
              && r.value.0[out] == p.files.render(ToLicenseFile(r.value.1))
              && (forall q :: q != out ==> (q in r.value.0 <==> q in files) && (q in files ==> r.value.0[q] == files[q]))
    ensures r.Ok? && FilesRoundTrip(p.files) ==>
              var out := LicenseOutputPath(cfg, customer, outputPath);
              && p.files.parse(r.value.0[out]).Some?
              && ServerModel.FromLicenseFile(p.files.parse(r.value.0[out]).value) == Ok(r.value.1)
  {
    if !KeysExist(cfg, files) then Err(KeysNotFound)
    else
      var unsigned := License(customer, expiry, Bindings(OrEmpty(bindMac), OrEmpty(bindHost)), None);
      match LoadPrivateKey(p.crypto, files, PrivateKeyPath(cfg))
      case Err(e) => Err(KeyUnreadable(e))
      case Ok(key) =>
        var signed := unsigned.(signature := Some(SignData(p.crypto, Payload(unsigned), key)));
        var out := LicenseOutputPath(cfg, customer, outputPath);
        RecordRoundTrip(signed);
        Ok((files[out := p.files.render(ToLicenseFile(signed))], signed))
  }

  /** An exception inside `verify_license`'s `try`. */
  datatype VerifyFailure =
    | LicenseFileMissing(path: string)
    | NotJson
    | BadRecord(error: FieldError)
    | KeyUnusable(keyError: KeyError)
    | BadDate(dateError: DateError)

  function FailureText(e: VerifyFailure): string {
    match e
    case LicenseFileMissing(path) => "[Errno 2] No such file or directory: '" + path + "'"
    case NotJson => "the license file is not JSON"
    case BadRecord(MissingKey(k)) => "'" + k + "'"
    case BadRecord(_) => "the license record is malformed"
    case KeyUnusable(KeyFileMissing(path)) => "[Errno 2] No such file or directory: '" + path + "'"
    case KeyUnusable(MalformedKey(_)) => "RSA key format is not supported"
    case BadDate(InvalidIsoFormat(text)) => "Invalid isoformat string: '" + text + "'"
  }

  /** Reading and decoding the license record. */
  function ReadLicense(files: map<string, string>, io: JsonFiles, path: string): (r: Result<License, VerifyFailure>)
    ensures path !in files ==> r == Err(LicenseFileMissing(path))
    ensures r.Ok? ==> path in files && io.parse(files[path]).Some?
                      && ServerModel.FromLicenseFile(io.parse(files[path]).value) == Ok(r.value)
    ensures r.Err? && path in files ==> r.error.NotJson? || r.error.BadRecord?
    ensures path in files && io.parse(files[path]).None? ==> r == Err(NotJson)
    ensures path in files && io.parse(files[path]).Some? ==>
              match ServerModel.FromLicenseFile(io.parse(files[path]).value)
              case Ok(l) => r == Ok(l)
              case Err(e) => r == Err(BadRecord(e))
  {
    if path !in files then Err(LicenseFileMissing(path))
    else match io.parse(files[path])
      case None => Err(NotJson)
      case Some(data) =>
        match ServerModel.FromLicenseFile(data)
        case Err(e) => Err(BadRecord(e))
        case Ok(l) => Ok(l)
  }

  /** The steps inside `verify_license`'s `try`: a failure, or the (valid, message) pair. */
  function VerifySteps(cfg: Config, files: map<string, string>, p: Platform, licensePath: string, now: int)
    : (r: Result<(bool, string), VerifyFailure>)
    ensures licensePath !in files ==> r == Err(LicenseFileMissing(licensePath))
    ensures r.Ok? && r.value.0 <==> Accepted(cfg, files, p, licensePath, now)
    ensures r.Ok? && r.value.0 ==>
              r.value.1 == "License valid for " + ReadLicense(files, p.files, licensePath).value.customer
    ensures r.Ok? && r.value.1 == "Invalid signature" ==>
              var l := ReadLicense(files, p.files, licensePath);
              var key := LoadPublicKey(p.crypto, files, PublicKeyPath(cfg));
              l.Ok? && key.Ok? && !CryptoUtils.VerifySignature(p.crypto, Payload(l.value), l.value.signature, key.value)
    ensures
      var l := ReadLicense(files, p.files, licensePath);
      var key := LoadPublicKey(p.crypto, files, PublicKeyPath(cfg));
      l.Ok? && key.Ok? && !CryptoUtils.VerifySignature(p.crypto, Payload(l.value), l.value.signature, key.value) ==>
        r == Ok((false, "Invalid signature"))
  {
    var l :- ReadLicense(files, p.files, licensePath);
    var key :- match LoadPublicKey(p.crypto, files, PublicKeyPath(cfg))
               case Err(e) => Err(KeyUnusable(e))
               case Ok(k) => Ok(k);
    if !CryptoUtils.VerifySignature(p.crypto, Payload(l), l.signature, key) then Ok((false, "Invalid signature"))
    else
      var expired :- match ServerModel.IsExpired(l, now, p.isoDay)
                     case Err(e) => Err(BadDate(e))
                     case Ok(b) => Ok(b);
      if expired then Ok((false, "License expired on " + l.expiry))
      else Ok((true, "License valid for " + l.customer))
  }

  /** The license at `path` was read, the public key loaded, the signature verified and the
      expiry date parsed and not yet passed. */
  predicate Accepted(cfg: Config, files: map<string, string>, p: Platform, path: string, now: int) {
    var l := ReadLicense(files, p.files, path);
    var key := LoadPublicKey(p.crypto, files, PublicKeyPath(cfg));
    && l.Ok? && key.Ok?
    && CryptoUtils.VerifySignature(p.crypto, Payload(l.value), l.value.signature, key.value)
    && ServerModel.IsExpired(l.value, now, p.isoDay) == Ok(false)
  }

  /** `verify_license`: every exception becomes `(False, "Verification error: ...")`. */
  function VerifyLicense(cfg: Config, files: map<string, string>, p: Platform, licensePath: string, now: int)
    : (r: (bool, string))
    ensures r.0 <==> Accepted(cfg, files, p, licensePath, now)
    ensures r.0 ==> Contains(r.1, ReadLicense(files, p.files, licensePath).value.customer)
    // The signature is judged before the expiry date is looked at.
    ensures r.1 == "Invalid signature" ==>
              var l := ReadLicense(files, p.files, licensePath);
              var key := LoadPublicKey(p.crypto, files, PublicKeyPath(cfg));
              l.Ok? && key.Ok? && !CryptoUtils.VerifySignature(p.crypto, Payload(l.value), l.value.signature, key.value)
    ensures
      var l := ReadLicense(files, p.files, licensePath);
      var key := LoadPublicKey(p.crypto, files, PublicKeyPath(cfg));
      l.Ok? && key.Ok? && !CryptoUtils.VerifySignature(p.crypto, Payload(l.value), l.value.signature, key.value) ==>
        r == (false, "Invalid signature")
    ensures licensePath !in files ==>
              r == (false, "Verification error: " + FailureText(LicenseFileMissing(licensePath)))
  {
    match VerifySteps(cfg, files, p, licensePath, now)
    case Err(e) =>
      assert ("Verification error: " + FailureText(e))[0] == 'V';
      (false, "Verification error: " + FailureText(e))
    case Ok(v) =>
      if v.0 then
        var l := ReadLicense(files, p.files, licensePath).value;
        ContainsInfix("License valid for ", l.customer, "");
        assert "License valid for " + l.customer + "" == "License valid for " + l.customer;
        v
      else v
  }
}

=== FILE: strings.dfy ===
/** Text helpers shared by the model: ASCII case folding, decimal rendering,
    substring containment, and Python's code-point ordering of `str`. */
module Strings {

  predicate IsUpper(c: char) { 'A' <= c <= 'Z' }

  predicate IsLowerCase(s: string) {
    forall i :: 0 <= i < |s| ==> !IsUpper(s[i])
  }

  /** `str.lower()` restricted to ASCII letters. */
  function LowerChar(c: char): (r: char)
    ensures !IsUpper(r)
  {
    if IsUpper(c) then (c as int + 32) as char else c
  }

  function Lower(s: string): (r: string)
    ensures |r| == |s|
    ensures forall i :: 0 <= i < |s| ==> r[i] == LowerChar(s[i])
    ensures IsLowerCase(r)
  {
    seq(|s|, i requires 0 <= i < |s| => LowerChar(s[i]))
  }

  /** Lowering text that is already lower case changes nothing. */
  lemma LowerOfLowerCase(s: string)
    requires IsLowerCase(s)
    ensures Lower(s) == s
  {
  }

  lemma LowerIdempotent(s: string)
    ensures Lower(Lower(s)) == Lower(s)
  {
    LowerOfLowerCase(Lower(s));
  }

  function DigitChar(d: int): (c: char)
    requires 0 <= d < 10
    ensures '0' <= c <= '9'
  {
    ('0' as int + d) as char
  }

  /** Decimal rendering of a natural number, as `str(n)` prints it. */
  function NatToString(n: nat): (r: string)
    ensures |r| > 0
    ensures forall i :: 0 <= i < |r| ==> '0' <= r[i] <= '9'
    decreases n
  {
    if n < 10 then [DigitChar(n)] else NatToString(n / 10) + [DigitChar(n % 10)]
  }

  /** Decimal rendering of an integer, with a leading '-' when negative. */
  function IntToString(n: int): (r: string)
    ensures |r| > 0
    ensures (r[0] == '-') <==> n < 0
  {
    if n < 0 then "-" + NatToString(-n) else NatToString(n)
  }

  /** The parts, separated by `sep` (Python's `sep.join(parts)`). */
  function Join(sep: string, parts: seq<string>): string
  {
    if |parts| == 0 then ""
    else if |parts| == 1 then parts[0]
    else parts[0] + sep + Join(sep, parts[1..])
  }

  predicate OccursAt(s: string, t: string, i: int) {
    0 <= i <= |s| - |t| && s[i..i + |t|] == t
  }

  /** `t in s` for Python strings. */
  predicate Contains(s: string, t: string) {
    exists i | 0 <= i <= |s| - |t| :: OccursAt(s, t, i)
  }

  lemma ContainsInfix(p: string, t: string, q: string)
    ensures Contains(p + t + q, t)
  {
    var s := p + t + q;
    assert s[|p|..|p| + |t|] == t;
    assert OccursAt(s, t, |p|);
  }

  /** Python's `<` on `str`: lexicographic by code point, a proper prefix first. */
  predicate StrLess(a: string, b: string)
    decreases |a|
  {
    if |a| == 0 then |b| > 0
    else if |b| == 0 then false
    else if a[0] != b[0] then a[0] < b[0]
    else StrLess(a[1..], b[1..])
  }

  lemma {:induction false} StrLessIrreflexive(a: string)
    ensures !StrLess(a, a)
    decreases |a|
  {
    if |a| > 0 {
      StrLessIrreflexive(a[1..]);
    }
  }

  lemma {:induction false} StrLessTransitive(a: string, b: string, c: string)
    requires StrLess(a, b) && StrLess(b, c)
    ensures StrLess(a, c)
    decreases |a|
  {
    if |a| > 0 && |b| > 0 && |c| > 0 && a[0] == b[0] && b[0] == c[0] {
      StrLessTransitive(a[1..], b[1..], c[1..]);
    }
  }

  lemma {:induction false} StrLessTotal(a: string, b: string)
    requires a != b
    ensures StrLess(a, b) || StrLess(b, a)
    decreases |a|
  {
    if |a| > 0 && |b| > 0 && a[0] == b[0] {
      assert a == [a[0]] + a[1..] && b == [b[0]] + b[1..];
      StrLessTotal(a[1..], b[1..]);
    }
  }
}

=== FILE: wrappers.dfy ===
/** Option and Result, usable with `:-`. */
module Wrappers {

  datatype Option<+T> = None | Some(value: T) {
    predicate IsFailure() { None? }

    function PropagateFailure<U>(): Option<U>
      requires None?
    {
      None
    }

    function Extract(): T
      requires Some?
    {
      value
    }
  }

  /** A computation that either produced a value or raised an error. */
  datatype Result<+T, +E> = Ok(value: T) | Err(error: E) {
    predicate IsFailure() { Err? }

    function PropagateFailure<U>(): Result<U, E>
      requires Err?
    {
      Err(error)
    }

    function Extract(): T
      requires Ok?
    {
      value
    }
  }
}
